=== FILE: README.md ===
# Session store and interaction analytics of autoyou_agent

This project models, in Dafny, the two pieces of `autoyou_agent` that carry logic of their own:

- **`TinyDBSessionService`**: a session service for an agent framework. It keeps five tables:
  - sessions
  - events
  - app state
  - user state
  - agent interactions

  It does four things:
  - It creates, reads, lists and deletes sessions. A delete cascades to the session's events and interactions.
  - It splits every state mapping by key prefix into an app-wide, a per-user and a per-session scope. It merges the scopes back when a session is read.
  - It appends events.
  - For every appended event, it records an "interaction". This is a classification of the event: a user question, a model response and/or a hand-off to a named agent, with a 200-character summary of its text.
- **`SessionAnalytics`**: a read-only query layer over those tables:
  - a per-user session summary;
  - app-wide agent usage statistics over a time window;
  - conversation patterns of one session: the transfer sequence, repeated transfer stretches ("loops"), question/response pairs and duration;
  - the most frequent user questions;
  - the export of one session.

How the model is built:

- The database is the immutable datatype `Records.Store`, with one sequence of documents per table in insertion order. Every operation is a pure function or a method of the store.
- TinyDB's queries become:
  - `Seqs.Find`, the first match, for `table.get`;
  - `Seqs.Filter` for `table.search` and `table.remove`;
  - an element-wise update of every match for `table.update`.
- Python's stable `sort`/`sorted` is the insertion sort `Seqs.SortBy`. A `reverse=True` sort is a stable sort on the negated key.
- `defaultdict(list)` is `Seqs.GroupBy`, `Counter` is `Seqs.Tally`, and `Counter.most_common(n)` is `Seqs.MostCommon`.

The modules follow the program's structure:

| module | file | contents |
|---|---|---|
| `Py` | `py.dfy` | Python semantics used by the code: `Option`, a dumped-dictionary field that may be missing or `None`, truthiness, slicing, `reversed`, `lower`, `strip` |
| `Seqs` | `seqs.dfy` | counting, filtering, first match, stable sort, grouping, `Counter` and `most_common` |
| `Scopes` | `scopes.dfy` | `_extract_state_delta` and `_merge_state` |
| `Records` | `records.dfy` | the table documents, events, sessions, interactions and the store |
| `Derive` | `derive.dfy` | the interaction recorded for an event (`_track_agent_interaction`), both as the code is written and as it is evidently meant |
| `SessionStore` | `session_store.dfy` | `create_session`, `get_session`, `list_sessions`, `delete_session`, `append_event`, the state updates, `get_agent_interaction_summary` |
| `Loops` | `loops.dfy` | `_find_loops_in_sequence` |
| `Analytics` | `analytics.dfy` | the `SessionAnalytics` queries |

How timestamps are handled:

- All timestamps are whole seconds, held as `int`.
- A calendar date is the UTC day `t / 86400`. Dafny's division rounds down, as the date of an earlier instant does.
- `datetime.now` becomes a `now` parameter.
- The id `uuid4` would generate becomes a `generatedId` parameter.

## Model

| member | source | states |
|---|---|---|
| Scopes.ExtractStateDelta | autoyou_agent/tinydb_session_service.py:388-402 | every key lands in exactly one part: the app prefix is tested first and stripped, then the user prefix, and any other key goes unchanged to the session part, with its value |
| Scopes.ExtractedFrom | autoyou_agent/tinydb_session_service.py:388-402 | nothing else is in the parts: every entry of a part comes from the key of the state that carries the matching prefix |
| Scopes.MergeState | autoyou_agent/tinydb_session_service.py:404-419 | session entries win; user entries appear re-prefixed unless a session key shadows them; app entries appear re-prefixed unless a session key shadows them |
| Scopes.MergedFrom | autoyou_agent/tinydb_session_service.py:404-419 | every merged key is a session key or a re-prefixed user or app key |
| Scopes.MergeExtract | autoyou_agent/tinydb_session_service.py:388-419 | merging the three parts of any state gives that state back |
| Scopes.ExtractMerge | autoyou_agent/tinydb_session_service.py:388-419 | when no session key carries a reserved prefix, splitting a merge gives back exactly the three parts |
| Scopes.MergeShowsState | autoyou_agent/tinydb_session_service.py:86-125 | laying the parts of a state over existing app and user scopes and merging shows every entry of that state with its value |
| SessionStore.UpsertAppState | autoyou_agent/tinydb_session_service.py:88-101 | the app scope becomes the old one updated by the delta, and every document of the app holds that state; afterwards the app has a document even when the delta is empty; other apps' documents are unchanged; an existing document is updated in place, otherwise exactly one document holding the delta is appended |
| SessionStore.UpsertUserState | autoyou_agent/tinydb_session_service.py:103-122 | the same for the (app, user) scope: a document for the pair exists afterwards, and other pairs' documents are unchanged |
| SessionStore.CreateSession | autoyou_agent/tinydb_session_service.py:70-149 | the session gets the given id, otherwise the generated one; its state is the merge of the updated app and user scopes with the session part, so it shows every entry of the given state; the app and user scopes are updated by their deltas, and a document exists for each of them afterwards even when a delta is empty; other apps' and users' documents are unchanged and at most one document is added to each scope table; exactly one session document is appended, holding only the session-scope keys; events and interactions are untouched |
| SessionStore.Recent | autoyou_agent/tinydb_session_service.py:187-193 | the kept events are sorted oldest first and are a sub-multiset of the input; their number follows Python's slice for positive and negative caps; without a cap they are all kept; any event dropped is no later than any event kept |
| SessionStore.GetSession | autoyou_agent/tinydb_session_service.py:151-213 | `None` exactly when no session document has the key; otherwise the state is the three-scope merge, and the events are a sub-multiset of the session's events in range, sorted, and honour the time bound. There are exactly min(cap, events in range) of them under a positive cap, the slice length under a negative one, and all events in range when there is no cap |
| SessionStore.GetSessionKeepsNewest | autoyou_agent/tinydb_session_service.py:187-193 | an event in range that the read leaves out is no later than any event it returns |
| SessionStore.GetSessionTiesReversed | autoyou_agent/tinydb_session_service.py:188-193 | events with equal timestamps come back in reverse insertion order |
| SessionStore.ListSessions | autoyou_agent/tinydb_session_service.py:215-234 | one listed session per document of the (app, user) pair, counted with multiplicity, each without events and with the stored state, and nothing else |
| SessionStore.ListedAreGettable | autoyou_agent/tinydb_session_service.py:215-234 | every listed session can be read back |
| SessionStore.CreateThenGet | autoyou_agent/tinydb_session_service.py:70-213 | reading a freshly created session returns exactly the session the create handed back |
| SessionStore.DeleteSession | autoyou_agent/tinydb_session_service.py:236-261 | every other session, event and interaction record survives, each copy of it, in the original order, and nothing of the deleted session survives; app and user scopes are unchanged |
| SessionStore.DeleteNoop | autoyou_agent/tinydb_session_service.py:236-261 | deleting a key that nothing carries leaves the store unchanged |
| SessionStore.DeleteIdempotent | autoyou_agent/tinydb_session_service.py:236-261 | deleting twice is deleting once |
| SessionStore.GetAfterDelete | autoyou_agent/tinydb_session_service.py:236-261 | after a delete the session cannot be read, and every other session reads exactly as before |
| SessionStore.UpdateAppState | autoyou_agent/tinydb_session_service.py:435-442 | an existing app scope is updated by the delta, other documents stay, and a missing one is not created |
| SessionStore.UpdateUserState | autoyou_agent/tinydb_session_service.py:444-456 | the same for the (app, user) scope |
| SessionStore.UpdateSessionState | autoyou_agent/tinydb_session_service.py:458-474 | the same for the session's documents; keys and timestamps are kept |
| SessionStore.UpdateAppStateIdempotent | autoyou_agent/tinydb_session_service.py:435-442 | applying the same app delta twice is applying it once |
| SessionStore.UpdateUserStateIdempotent | autoyou_agent/tinydb_session_service.py:444-456 | applying the same user delta twice is applying it once |
| SessionStore.UpdateSessionStateIdempotent | autoyou_agent/tinydb_session_service.py:458-474 | applying the same session delta twice is applying it once |
| SessionStore.ApplyStateDelta | autoyou_agent/tinydb_session_service.py:275-286 | each scope that already has a document is updated by its part of the delta; documents of other apps, users and sessions are unchanged; no document is created or removed; keys and timestamps are kept |
| SessionStore.ApplyActions | autoyou_agent/tinydb_session_service.py:274-286 | without actions or with an empty delta the store is unchanged; otherwise each existing app, user and session scope gains its part of the delta, and documents of other apps, users and sessions are unchanged |
| SessionStore.ApplyToApp | autoyou_agent/tinydb_session_service.py:281-282 | an empty app part changes nothing; a non-empty one updates an existing app scope; other apps' documents are unchanged |
| SessionStore.ApplyToUser | autoyou_agent/tinydb_session_service.py:283-284 | the same for the user part, with other (app, user) pairs' documents unchanged |
| SessionStore.ApplyToSession | autoyou_agent/tinydb_session_service.py:285-286 | the same for the session part, with other sessions' documents unchanged |
| SessionStore.ApplyStateDeltaIdempotent | autoyou_agent/tinydb_session_service.py:275-286 | applying the same event delta twice is applying it once |
| SessionStore.Touch | autoyou_agent/tinydb_session_service.py:288-295 | exactly the session's documents get `updated_at = now`, and its state is unchanged |
| SessionStore.AppendEvent | autoyou_agent/tinydb_session_service.py:265-301 | exactly one event document and one interaction are appended, the interaction being the derivation of the event for this session; documents of other apps, users and sessions are unchanged; sessions keep their keys and creation times, and only this session's update time becomes `now`; with a delta, each existing app, user and session scope gains its part of the delta, and without one no state changes |
| SessionStore.AppendKeepsSession | autoyou_agent/tinydb_session_service.py:288-295 | an append never removes the session's document |
| SessionStore.AppendShowsSessionDelta | autoyou_agent/tinydb_session_service.py:275-295 | reading the session after an append shows every session-scope entry of the delta |
| SessionStore.Timeline | autoyou_agent/tinydb_session_service.py:374-383 | the timeline is ascending in time and holds exactly one entry per interaction (the same multiset as the interactions' entries) |
| SessionStore.GetAgentInteractionSummary | autoyou_agent/tinydb_session_service.py:359-386 | the total is the number of the session's interactions; the question, response and transfer counts are the flag counts; the agents used are exactly the truthy agent names; the timeline is ascending and holds exactly one entry per interaction of the session |
| SessionStore.SummaryAfterAppend | autoyou_agent/tinydb_session_service.py:303-357 | an append adds one to the summary total of its own session and none to any other |
| SessionStore.SummaryAfterDelete | autoyou_agent/tinydb_session_service.py:255-261 | after a delete the session's summary is empty |
| Records.AgentNames | autoyou_agent/tinydb_session_service.py:373 | the set of agent names Python's truthiness keeps: every member is named by some interaction, and every set, non-empty name is a member |
| Derive.DeriveInteraction | autoyou_agent/tinydb_session_service.py:303-357 | the key, event id, author and timestamp are copied; the question flag holds iff there is content and the author is `user`; the response flag holds iff there is content and the author is `model`; the content type follows the flags; the summary is the first 200 characters of the first part's text when it exists; the transfer flag holds iff some call is `transfer_to_agent`; the agent name comes only from the first such call's `agent_name` argument |
| Derive.TransferTarget | autoyou_agent/tinydb_session_service.py:345-355 | a transfer is flagged iff some call is a transfer; a name is given iff the first transfer call names an agent, and it is that call's name |
| Derive.Summary | autoyou_agent/tinydb_session_service.py:329-333 | a summary exists iff the first part has a text, and it is that text's prefix of length min(200, length) |
| Derive.AsWrittenAgrees | autoyou_agent/tinydb_session_service.py:321-355 | the code as written raises exactly when it reads a `None` text, call list or `args`, and otherwise records what `DeriveInteraction` records |
| Derive.SummaryAgrees | autoyou_agent/tinydb_session_service.py:329-343 | the summary as written raises exactly on a `None` first text and otherwise agrees with `Summary` |
| Derive.TransferAgrees | autoyou_agent/tinydb_session_service.py:346-355 | the transfer lookup as written raises exactly on a `None` call list or a `None` `args` of the first transfer call, and otherwise agrees with `TransferTarget` |
| Derive.NullTextRaises | autoyou_agent/tinydb_session_service.py:336-343 | a model reply whose first part has a `None` text makes the code raise, where the corrected derivation records a response without a summary |
| Derive.NullArgsRaises | autoyou_agent/tinydb_session_service.py:350-355 | a transfer call with `None` arguments makes the code raise, where the corrected derivation records a transfer without an agent name |
| Py.Take | autoyou_agent/session_analytics.py:227 | Python's `s[:n]`: a prefix of length min(n, length) for n ≥ 0 and of length max(0, length + n) for n < 0 |
| Py.Reverse | autoyou_agent/tinydb_session_service.py:193 | `reversed`: the same elements in the opposite order |
| Py.Lower | autoyou_agent/session_analytics.py:211 | `lower()` on ASCII: same length, each character lowered |
| Py.Strip | autoyou_agent/session_analytics.py:211 | `strip()`: the result sits in the input with only whitespace before and after it, and has no whitespace at either end; a string without whitespace is unchanged |
| Seqs.Find | autoyou_agent/tinydb_session_service.py:161-165 | TinyDB `get`: `None` exactly when no document matches, otherwise the matching document with no match before it |
| Seqs.SortBy | autoyou_agent/session_analytics.py:133 | `sort(key=...)`: a permutation of the input, sorted by the key |
| Seqs.SortStable | autoyou_agent/session_analytics.py:226 | the sort is stable: the elements with one key keep their relative order |
| Seqs.GroupBy | autoyou_agent/session_analytics.py:207-212 | `defaultdict(list)` grouping: distinct keys, each bucket holds exactly the elements with its key in order, every element has a bucket, and the bucket sizes add up to the input length |
| Seqs.Tally | autoyou_agent/session_analytics.py:55-60 | `Counter`: one entry per distinct key, each counting exactly the elements with that key, every element counted, counts adding up to the input length |
| Seqs.MostCommon | autoyou_agent/session_analytics.py:70 | `most_common(n)`: min(n, size) entries of the counter (none when n is at most 0, as `heapq.nlargest` returns), largest count first, all of them when n is at least the size, and no left-out entry counts more than a kept one |
| Seqs.TopCounts | autoyou_agent/session_analytics.py:55-70 | `Counter(...).most_common(n)` ranks: at most n distinct keys with their true counts, descending, and every key left out is no more frequent than every key listed, the list being full |
| Seqs.MaxOf | autoyou_agent/session_analytics.py:221 | `max` of a non-empty list: a member that no element exceeds |
| Loops.FindRepeat | autoyou_agent/session_analytics.py:184-195 | the first position at or after the pattern's end where the pattern repeats, or none when it never repeats there |
| Loops.LoopAt | autoyou_agent/session_analytics.py:188-194 | the reported record is a valid loop for that start and length |
| Loops.ScanFrom | autoyou_agent/session_analytics.py:179-195 | one start index: earlier reports are kept, every report is valid, reports stay ordered, and every length of at least three with a later copy is reported |
| Loops.FindLoops | autoyou_agent/session_analytics.py:174-197 | every report has a pattern of at least three taken from the sequence, a repetition count of 2, and an end index at the first later copy; reports are ordered by start, then length, so no stretch appears twice; every stretch of length ≥ 3 with a later copy is reported; a sequence shorter than six gives no loops |
| Analytics.PairQuestions | autoyou_agent/session_analytics.py:144-159 | the pairs are exactly the (question, response) positions where only quiet interactions lie between, in order and without overlap; each pair is built from its two interactions; there are no more pairs than questions or answering responses; durations are non-negative when the input is time-sorted |
| Analytics.OpenQuestionAnswered | autoyou_agent/session_analytics.py:147-159 | a response can only answer the currently open question, since a later question replaces an earlier unanswered one |
| Analytics.DetectConversationPatterns | autoyou_agent/session_analytics.py:123-172 | the total is the number of the session's interactions; the processing order is the stable time sort of them, so equal timestamps keep insertion order; the transfer sequence is the truthy agent names of the transfers, in that order; the loops are valid, complete and increasing; the pairs are exactly the answered questions of that order, in order and non-overlapping, and no more than the questions or the answers; the agents involved and duration are those of that order, with the duration being the largest time difference between two interactions |
| Analytics.AgentsOfPermutation | autoyou_agent/session_analytics.py:167 | the agents involved do not depend on the order of the interactions |
| Analytics.OrderSpan | autoyou_agent/session_analytics.py:168-171 | in a time-sorted order, last minus first bounds every time difference, and both ends are interactions of the session |
| Analytics.GetUserSessionSummary | autoyou_agent/session_analytics.py:35-80 | session, interaction, question, response and transfer counts of the user; the most-used agents ranked, at most 10; sessions per day, adding up to the session total; the session rows newest first, one per session |
| Analytics.UserSummaryAfterCreate | autoyou_agent/session_analytics.py:48-49 | creating a session adds one to its user's session total, nothing to any other user's, and nothing to any interaction total |
| Analytics.CreatedSessionListed | autoyou_agent/session_analytics.py:72-79 | a created session appears among its user's session rows |
| Analytics.UserIds | autoyou_agent/session_analytics.py:220 | `set(q['user_id'] ...)`: exactly the users of the interactions, at least one when there is one, never more than the interactions |
| Analytics.GetAgentUsageStatistics | autoyou_agent/session_analytics.py:82-121 | only interactions recorded at or after `now − days` count; transfers are at most all interactions; the transfer counts per named agent are a counter; the transfers per day add up to the transfer total; the most popular agents are ranked, at most 10; each agent's user count is the number of distinct users among its interactions |
| Analytics.AgentUsers | autoyou_agent/session_analytics.py:98-104 | one entry per named agent, holding its number of distinct users, between 1 and its number of interactions |
| Analytics.UsageWindowGrows | autoyou_agent/session_analytics.py:84-95 | widening the window never lowers the interaction or transfer totals |
| Analytics.LatestTime | autoyou_agent/session_analytics.py:221 | the latest timestamp of a group: a member's timestamp that no member exceeds |
| Analytics.GetFrequentUserQuestions | autoyou_agent/session_analytics.py:199-227 | each report describes one group of summarised questions under the lower-cased, stripped 100-character key: its true size, distinct users (at most the size), first question and latest time; patterns are distinct; frequencies do not increase; at most `limit` reports for a non-negative limit; a question's group is reported or no more frequent than every report of a full list; the frequencies add up to at most the number of questions |
| Analytics.RankReports | autoyou_agent/session_analytics.py:215-224 | every ranked report describes its group |
| Analytics.RankDistinct | autoyou_agent/session_analytics.py:208-224 | no two ranked reports share a pattern |
| Analytics.RankOrder | autoyou_agent/session_analytics.py:226-227 | ranked reports are by falling frequency and at most `limit` long |
| Analytics.RankCover | autoyou_agent/session_analytics.py:226-227 | a group left out by the cut is no more frequent than any report kept |
| Analytics.RankSum | autoyou_agent/session_analytics.py:215-227 | the reported frequencies add up to at most the number of questions |
| Analytics.DescribeOne | autoyou_agent/session_analytics.py:216-222 | the report of a non-empty group describes it |
| Analytics.ExportSessionData | autoyou_agent/session_analytics.py:229-260 | the session document is the first match, or `None` when there is none; events and interactions are time-sorted permutations of the session's; the summary is `get_agent_interaction_summary` of the session, and its timeline is the exported interactions |
| Analytics.ExportMatchesGetSession | autoyou_agent/session_analytics.py:229-245 | the export finds the session exactly when `get_session` does, and holds the same events |

## Left out

- Persistence: TinyDB, its caching middleware, JSON storage, `flush` and `close`. The tables are in-memory sequences.
- Time and identity:
  - The clock, `uuid4` and the ISO-8601 strings are not modelled. Timestamps are whole seconds; `now` and the generated id are parameters.
  - The code sorts events by their ISO strings. The model sorts by the timestamps those strings encode.
  - Local time versus UTC in `datetime.fromtimestamp` is not modelled.
  - `str(date)` keys of the daily counts are day numbers in the model.
- Framework plumbing:
  - async and `await`.
  - `BaseSessionService.append_event`, the in-memory update of the caller's session object. It is not part of this model.
  - Pydantic `model_dump` and `decode_content`. Content and actions are small datatypes holding only the fields the service reads.
  - Event fields that are stored but never read: branch flags, grounding metadata, error fields.
- The agent framework's `State` class is not part of this model. Its prefixes `app:` and `user:` are constants in `Scopes`.
- Python collections:
  - `list(set(...))` for `agents_used` and `agents_involved` is a `set`, since its order is arbitrary.
  - `dict(...)` outputs are sequences of (key, count) pairs, in first-met order.
- `create_analytics_instance`: construction only.
- Py.Lower: lowers ASCII letters only; Unicode case mapping is not modelled.
- Records.FunctionCall: argument values are strings. An `agent_name` argument holding `None` or a non-string value is copied through verbatim by the source, but this model cannot express it.
- The report for an empty group (in `Analytics.Describe`) is a placeholder: grouping never produces an empty group, and the code has no such case.
- `_find_loops_in_sequence` tries patterns from length two but reports only those of length three or more, so `["a","b","a","b","c"]` yields no loop (`Loops.FindLoops`).
- `get_session` sorts events newest first with a stable sort, cuts, then applies `reversed`, so events with equal timestamps come back newest-inserted first (`SessionStore.GetSessionTiesReversed`).
- `list_sessions` returns each document's stored session-scope state, not the merged state. The model follows the code.

## Findings

| source | as written | input that shows it | evidently intended | confidence | as-written member | corrected member |
|---|---|---|---|---|---|---|
| autoyou_agent/tinydb_session_service.py:329-343 | `parts[0]['text'][:200]` runs whenever the dumped first part has a `text` key. A dumped part always has one, holding `None` when the part is a function call, so slicing raises `TypeError` | a `model` event whose content is one function-call part, dumped as `{'text': None, ...}` | record a response without a summary | not executed | Derive.NullTextRaises | Derive.DeriveInteraction |
| autoyou_agent/tinydb_session_service.py:346-355 | `for call in function_calls` and `'agent_name' in call['args']` read keys that are present but may hold `None`, raising `TypeError` | a `transfer_to_agent` call whose `args` is `None` | record a transfer without an agent name | not executed | Derive.NullArgsRaises | Derive.DeriveInteraction |

`Derive.DeriveInteractionAsWritten` models the code as written. `Derive.AsWrittenAgrees` proves two things:
- It raises exactly on those `None` fields.
- Otherwise it agrees with the corrected `Derive.DeriveInteraction`, which the rest of the model uses.

=== FILE: analytics.dfy ===
/** The read-only analytics over the interaction, session and event tables:
    per-session patterns, per-user summaries, app-wide usage statistics,
    frequent questions and the export of one session. */
module Analytics {
  import opened Py
  import opened Seqs
  import opened Scopes
  import opened Records
  import opened SessionStore
  import opened Loops

  // ---------------------------------------------------------------------------
  // Question/response pairing

  /** A question, the response that answered it and the time between them. */
  datatype QaPair = QaPair(
    questionTime: int,
    responseTime: int,
    durationSeconds: int,
    questionSummary: Option<string>,
    responseSummary: Option<string>)

  function MakePair(q: Interaction, r: Interaction): QaPair {
    QaPair(q.timestamp, r.timestamp, r.timestamp - q.timestamp, q.contentSummary, r.contentSummary)
  }

  /** A response the pairing acts on: the question flag is tested first. */
  function IsAnswer(x: Interaction): bool { !x.isUserQuestion && x.isAgentResponse }

  /** An interaction the pairing passes over. */
  predicate Quiet(x: Interaction) { !x.isUserQuestion && !x.isAgentResponse }

  /** The response at `r` answers the question at `q`: nothing but quiet
      interactions lies between them, so `q` is still the open question. */
  predicate Answers(xs: seq<Interaction>, q: int, r: int) {
    0 <= q < r < |xs| && xs[q].isUserQuestion && IsAnswer(xs[r]) && forall m | q < m < r :: Quiet(xs[m])
  }

  /** Every question before `n` other than the open one has been closed by a
      later question or response. */
  ghost predicate Closed(xs: seq<Interaction>, n: int, open: int)
    requires n <= |xs|
  {
    forall q | 0 <= q < n && xs[q].isUserQuestion && q != open :: exists m | q < m < n :: !Quiet(xs[m])
  }

  /** Every answer before `n` is recorded in `w`. */
  ghost predicate Complete(xs: seq<Interaction>, n: int, w: seq<(int, int)>) {
    forall q, r | r < n && Answers(xs, q, r) :: exists t | 0 <= t < |w| :: w[t] == (q, r)
  }

  /** The pairs in `pairs`, at positions `w`, are answers in order. */
  ghost predicate SoundPairs(xs: seq<Interaction>, n: int, pairs: seq<QaPair>, w: seq<(int, int)>) {
    && |w| == |pairs|
    && (forall t | 0 <= t < |w| ::
          Answers(xs, w[t].0, w[t].1) && w[t].1 < n && pairs[t] == MakePair(xs[w[t].0], xs[w[t].1]))
    && (forall t | 0 <= t < |w| - 1 :: w[t].1 < w[t + 1].0)
  }

  /** The open question, if any, sits at `open` with only quiet interactions after it. */
  ghost predicate OpenAt(xs: seq<Interaction>, n: int, w: seq<(int, int)>, current: Option<Interaction>, open: int) {
    && (if current.Some? then 0 <= open else open == -1)
    && (current.Some? ==>
          && open < n <= |xs| && xs[open].isUserQuestion && current.value == xs[open]
          && (forall m | open < m < n :: Quiet(xs[m]))
          && (|w| > 0 ==> w[|w| - 1].1 < open))
  }

  /** What the pairing pass keeps after reading `xs[..n]`. */
  ghost predicate PairInv(xs: seq<Interaction>, n: int, pairs: seq<QaPair>, w: seq<(int, int)>,
                          current: Option<Interaction>, open: int) {
    && 0 <= n <= |xs|
    && SoundPairs(xs, n, pairs, w)
    && OpenAt(xs, n, w, current, open)
    && Closed(xs, n, open)
    && Complete(xs, n, w)
    && |pairs| + (if current.Some? then 1 else 0) <= Count(xs[..n], IsQuestion)
    && |pairs| <= Count(xs[..n], IsAnswer)
  }

  /** The pairing pass of `detect_conversation_patterns`: a question becomes the
      open one, replacing any unanswered one; a response closes the open
      question; a response with no open question is ignored. `w` holds the
      positions of each pair. */
  method PairQuestions(xs: seq<Interaction>) returns (pairs: seq<QaPair>, ghost w: seq<(int, int)>)
    ensures |w| == |pairs|
    ensures forall t | 0 <= t < |w| :: Answers(xs, w[t].0, w[t].1) && pairs[t] == MakePair(xs[w[t].0], xs[w[t].1])
    ensures forall t | 0 <= t < |w| - 1 :: w[t].1 < w[t + 1].0
    ensures forall q, r | Answers(xs, q, r) :: exists t | 0 <= t < |w| :: w[t] == (q, r)
    ensures |pairs| <= Count(xs, IsQuestion) && |pairs| <= Count(xs, IsAnswer)
    ensures SortedBy(xs, InteractionTime) ==> forall p | p in pairs :: p.durationSeconds >= 0
  {
    pairs, w := [], [];
    var current: Option<Interaction> := None;
    ghost var open: int := -1;
    var n := 0;
    PairStart(xs);
    while n < |xs|
      invariant PairInv(xs, n, pairs, w, current, open)
    {
      var x := xs[n];
      if x.isUserQuestion {
        QuestionStep(xs, n, pairs, w, current, open);
        current := Some(x);
        open := n;
      } else if x.isAgentResponse && current.Some? {
        AnswerStep(xs, n, pairs, w, current, open);
        pairs := pairs + [MakePair(current.value, x)];
        w := w + [(open, n)];
        current := None;
        open := -1;
      } else {
        SkipStep(xs, n, pairs, w, current, open);
      }
      n := n + 1;
    }
    PairDone(xs, pairs, w, current, open);
  }

  lemma PairStart(xs: seq<Interaction>)
    ensures PairInv(xs, 0, [], [], None, -1)
  {
    assert xs[..0] == [];
  }

  lemma QuestionStep(xs: seq<Interaction>, n: int, pairs: seq<QaPair>, w: seq<(int, int)>,
                     current: Option<Interaction>, open: int)
    requires PairInv(xs, n, pairs, w, current, open) && n < |xs| && xs[n].isUserQuestion
    ensures PairInv(xs, n + 1, pairs, w, Some(xs[n]), n)
  {
    CountSnoc(xs, n, IsQuestion);
    CountSnoc(xs, n, IsAnswer);
    ClosedStep(xs, n, open, n);
    CompleteStep(xs, n, open, w, w);
  }

  lemma AnswerStep(xs: seq<Interaction>, n: int, pairs: seq<QaPair>, w: seq<(int, int)>,
                   current: Option<Interaction>, open: int)
    requires PairInv(xs, n, pairs, w, current, open) && n < |xs|
    requires !xs[n].isUserQuestion && xs[n].isAgentResponse && current.Some?
    ensures PairInv(xs, n + 1, pairs + [MakePair(current.value, xs[n])], w + [(open, n)], None, -1)
  {
    CountSnoc(xs, n, IsQuestion);
    CountSnoc(xs, n, IsAnswer);
    ClosedStep(xs, n, open, -1);
    assert Answers(xs, open, n);
    SoundAppend(xs, n, pairs, w, open);
    CompleteStep(xs, n, open, w, w + [(open, n)]);
  }

  lemma OpenGrows(xs: seq<Interaction>, n: int, w: seq<(int, int)>, current: Option<Interaction>, open: int)
    requires OpenAt(xs, n, w, current, open) && 0 <= n < |xs| && Quiet(xs[n])
    ensures OpenAt(xs, n + 1, w, current, open)
  {
  }

  lemma SoundAppend(xs: seq<Interaction>, n: int, pairs: seq<QaPair>, w: seq<(int, int)>, q: int)
    requires SoundPairs(xs, n, pairs, w) && Answers(xs, q, n)
    requires |w| > 0 ==> w[|w| - 1].1 < q
    ensures SoundPairs(xs, n + 1, pairs + [MakePair(xs[q], xs[n])], w + [(q, n)])
  {
  }

  lemma SkipStep(xs: seq<Interaction>, n: int, pairs: seq<QaPair>, w: seq<(int, int)>,
                 current: Option<Interaction>, open: int)
    requires PairInv(xs, n, pairs, w, current, open) && n < |xs|
    requires !xs[n].isUserQuestion && !(xs[n].isAgentResponse && current.Some?)
    ensures PairInv(xs, n + 1, pairs, w, current, open)
  {
    CountSnoc(xs, n, IsQuestion);
    CountSnoc(xs, n, IsAnswer);
    SoundGrows(xs, n, pairs, w);
    if current.Some? {
      assert Quiet(xs[n]);
      OpenGrows(xs, n, w, current, open);
      ClosedStep(xs, n, open, open);
    } else {
      ClosedStep(xs, n, -1, -1);
    }
    CompleteStep(xs, n, open, w, w);
  }

  lemma SoundGrows(xs: seq<Interaction>, n: int, pairs: seq<QaPair>, w: seq<(int, int)>)
    requires SoundPairs(xs, n, pairs, w)
    ensures SoundPairs(xs, n + 1, pairs, w)
  {
  }

  lemma PairDone(xs: seq<Interaction>, pairs: seq<QaPair>, w: seq<(int, int)>, current: Option<Interaction>, open: int)
    requires PairInv(xs, |xs|, pairs, w, current, open)
    ensures |w| == |pairs|
    ensures forall t | 0 <= t < |w| :: Answers(xs, w[t].0, w[t].1) && pairs[t] == MakePair(xs[w[t].0], xs[w[t].1])
    ensures forall t | 0 <= t < |w| - 1 :: w[t].1 < w[t + 1].0
    ensures forall q, r | Answers(xs, q, r) :: exists t | 0 <= t < |w| :: w[t] == (q, r)
    ensures |pairs| <= Count(xs, IsQuestion) && |pairs| <= Count(xs, IsAnswer)
    ensures SortedBy(xs, InteractionTime) ==> forall p | p in pairs :: p.durationSeconds >= 0
  {
    assert xs[..|xs|] == xs;
    if SortedBy(xs, InteractionTime) {
      forall p | p in pairs ensures p.durationSeconds >= 0 {
        var t :| 0 <= t < |pairs| && pairs[t] == p;
        assert InteractionTime(xs[w[t].0]) <= InteractionTime(xs[w[t].1]);
      }
    }
  }

  lemma ClosedStep(xs: seq<Interaction>, n: int, open0: int, open: int)
    requires 0 <= n < |xs|
    requires Closed(xs, n, open0)
    requires || (open == n && xs[n].isUserQuestion)
             || (open == -1 && !Quiet(xs[n]) && !xs[n].isUserQuestion)
             || (open == open0 && Quiet(xs[n]))
    ensures Closed(xs, n + 1, open)
  {
    forall q | 0 <= q < n + 1 && xs[q].isUserQuestion && q != open
      ensures exists m | q < m < n + 1 :: !Quiet(xs[m])
    {
      if q != open0 && q < n {
        var m :| q < m < n && !Quiet(xs[m]);
        assert q < m < n + 1 && !Quiet(xs[m]);
      } else {
        assert !Quiet(xs[n]);
      }
    }
  }

  lemma CompleteStep(xs: seq<Interaction>, n: int, open0: int, w0: seq<(int, int)>, w: seq<(int, int)>)
    requires 0 <= n < |xs|
    requires Closed(xs, n, open0) && Complete(xs, n, w0)
    requires |w0| <= |w| && w[..|w0|] == w0
    requires Answers(xs, open0, n) ==> |w| > 0 && w[|w| - 1] == (open0, n)
    ensures Complete(xs, n + 1, w)
  {
    forall q, r | r < n + 1 && Answers(xs, q, r) ensures exists t | 0 <= t < |w| :: w[t] == (q, r) {
      if r < n {
        var t :| 0 <= t < |w0| && w0[t] == (q, r);
        assert w[t] == (q, r);
      } else {
        OpenQuestionAnswered(xs, n, open0, q);
      }
    }
  }

  /** Only the open question can be answered at position `n`. */
  lemma OpenQuestionAnswered(xs: seq<Interaction>, n: int, open: int, q: int)
    requires 0 <= n < |xs|
    requires Closed(xs, n, open)
    requires Answers(xs, q, n)
    ensures q == open
  {
  }

  // ---------------------------------------------------------------------------
  // detect_conversation_patterns

  /** What `detect_conversation_patterns` reports about one session. */
  datatype ConversationPatterns = ConversationPatterns(
    sessionId: string,
    totalInteractions: nat,
    transferSequence: seq<string>,
    detectedLoops: seq<Loop>,
    questionResponsePairs: seq<QaPair>,
    agentsInvolved: set<string>,
    conversationDuration: int)

  /** A transfer that names its target agent. */
  function IsNamedTransfer(x: Interaction): bool { x.isTransferToAgent && Truthy(x.agentName) }

  /** An interaction whose agent name Python's truthiness keeps. */
  function HasAgent(x: Interaction): bool { Truthy(x.agentName) }

  function AgentOf(x: Interaction): string { x.agentName.GetOr("") }

  /** `detect_conversation_patterns`: the session's interactions in time order
      (`order`, a stable sort), the agents named by its transfers in that order,
      the repeated stretches of that sequence, the question/response pairs of
      that order (at positions `w`), the agents named anywhere and the time from
      first to last interaction. */
  method DetectConversationPatterns(store: Store, k: SessionKey)
    returns (r: ConversationPatterns, ghost order: seq<Interaction>, ghost w: seq<(int, int)>)
    ensures r.sessionId == k.id
    ensures r.totalInteractions == Count(store.interactions, InteractionOf(k)) == |order|
    ensures order == SortBy(SessionInteractions(store, k), InteractionTime)
    ensures multiset(order) == multiset(SessionInteractions(store, k))
    ensures SortedBy(order, InteractionTime)
    ensures SortedBy(Filter(order, IsNamedTransfer), InteractionTime)
    ensures r.transferSequence == Map(Filter(order, IsNamedTransfer), AgentOf)
    ensures |r.transferSequence| == Count(SessionInteractions(store, k), IsNamedTransfer)
    ensures forall l | l in r.detectedLoops :: ValidLoop(r.transferSequence, l)
    ensures Increasing(r.detectedLoops)
    ensures forall i, n | MinLoopLength <= n && HasRepeat(r.transferSequence, i, n) :: Reported(r.detectedLoops, i, n)
    ensures |w| == |r.questionResponsePairs|
    ensures forall t | 0 <= t < |w| ::
      Answers(order, w[t].0, w[t].1) && r.questionResponsePairs[t] == MakePair(order[w[t].0], order[w[t].1])
    ensures forall q, a | Answers(order, q, a) :: exists t | 0 <= t < |w| :: w[t] == (q, a)
    ensures forall t | 0 <= t < |w| - 1 :: w[t].1 < w[t + 1].0
    ensures |r.questionResponsePairs| <= Count(SessionInteractions(store, k), IsQuestion)
    ensures |r.questionResponsePairs| <= Count(SessionInteractions(store, k), IsAnswer)
    ensures forall p | p in r.questionResponsePairs :: p.durationSeconds >= 0
    ensures r.agentsInvolved == AgentNames(SessionInteractions(store, k))
    ensures r.totalInteractions <= 1 ==> r.conversationDuration == 0
    ensures r.totalInteractions > 1 ==>
      && (forall x, y | x in SessionInteractions(store, k) && y in SessionInteractions(store, k) ::
            x.timestamp - y.timestamp <= r.conversationDuration)
      && (exists x, y | x in SessionInteractions(store, k) && y in SessionInteractions(store, k) ::
            x.timestamp - y.timestamp == r.conversationDuration)
  {
    var xs := SessionInteractions(store, k);
    var sorted := SortBy(xs, InteractionTime);
    var named := Filter(sorted, IsNamedTransfer);
    FilterSorted(sorted, InteractionTime, IsNamedTransfer);
    FilterPermutation(sorted, xs, IsNamedTransfer);
    assert |named| == |multiset(named)| == |multiset(Filter(xs, IsNamedTransfer))| == |Filter(xs, IsNamedTransfer)|;
    var sequence := Map(named, AgentOf);
    var loops := FindLoops(sequence);
    var pairs;
    pairs, w := PairQuestions(sorted);
    CountPermutation(sorted, xs, IsQuestion);
    CountPermutation(sorted, xs, IsAnswer);
    var duration := if |sorted| > 1 then sorted[|sorted| - 1].timestamp - sorted[0].timestamp else 0;
    if |sorted| > 1 {
      OrderSpan(xs, sorted);
    }
    AgentsOfPermutation(sorted, xs);
    order := sorted;
    r := ConversationPatterns(k.id, |sorted|, sequence, loops, pairs, AgentNames(sorted), duration);
  }

  /** The agents named in two orderings of the same interactions are the same. */
  lemma AgentsOfPermutation(a: seq<Interaction>, b: seq<Interaction>)
    requires multiset(a) == multiset(b)
    ensures AgentNames(a) == AgentNames(b)
  {
    assert forall x :: x in a <==> x in multiset(b);
  }

  /** In a time-ordered permutation the first and last elements span every
      difference of timestamps. */
  lemma OrderSpan(xs: seq<Interaction>, order: seq<Interaction>)
    requires multiset(order) == multiset(xs) && SortedBy(order, InteractionTime)
    requires |order| > 1
    ensures forall x, y | x in xs && y in xs ::
      x.timestamp - y.timestamp <= order[|order| - 1].timestamp - order[0].timestamp
    ensures order[0] in xs && order[|order| - 1] in xs
  {
    assert order[0] in multiset(xs) && order[|order| - 1] in multiset(xs);
    forall x, y | x in xs && y in xs
      ensures x.timestamp - y.timestamp <= order[|order| - 1].timestamp - order[0].timestamp
    {
      assert x in multiset(order) && y in multiset(order);
      var i :| 0 <= i < |order| && order[i] == x;
      var j :| 0 <= j < |order| && order[j] == y;
      assert InteractionTime(order[i]) <= InteractionTime(order[|order| - 1]);
      assert InteractionTime(order[0]) <= InteractionTime(order[j]);
    }
  }

  // ---------------------------------------------------------------------------
  // get_user_session_summary

  const SecondsPerDay: int := 86400

  /** How many agents the rankings list. */
  const TopAgents: int := 10

  /** The UTC calendar day of a timestamp, counted from the epoch; Dafny's
      division rounds down, as the date of an earlier instant does. */
  function DayOf(t: int): int { t / SecondsPerDay }

  function CreatedDay(d: SessionDoc): int { DayOf(d.createdAt) }

  function NegCreated(d: SessionDoc): int { -d.createdAt }

  /** One line of a user's session list. */
  datatype SessionRow = SessionRow(sessionId: string, createdAt: int, updatedAt: int)

  function Row(d: SessionDoc): SessionRow { SessionRow(d.id, d.createdAt, d.updatedAt) }

  datatype UserSessionSummary = UserSessionSummary(
    userId: string,
    appName: string,
    totalSessions: nat,
    totalInteractions: nat,
    userQuestions: nat,
    agentResponses: nat,
    agentTransfers: nat,
    mostUsedAgents: seq<(string, nat)>,
    dailyActivity: seq<(int, nat)>,
    sessions: seq<SessionRow>)

  function UserInteractionOf(appName: string, userId: string): Interaction -> bool {
    (x: Interaction) => x.appName == appName && x.userId == userId
  }

  function UserSessions(store: Store, appName: string, userId: string): seq<SessionDoc> {
    Filter(store.sessions, UserSessionOf(appName, userId))
  }

  function UserInteractions(store: Store, appName: string, userId: string): seq<Interaction> {
    Filter(store.interactions, UserInteractionOf(appName, userId))
  }

  /** `get_user_session_summary`: the user's session and interaction counts,
      the agents named most often in the user's interactions, sessions created
      per day, and the sessions newest first (a stable sort, so sessions created
      at the same instant keep their table order). */
  function GetUserSessionSummary(store: Store, appName: string, userId: string): (r: UserSessionSummary)
    ensures r.userId == userId && r.appName == appName
    ensures r.totalSessions == Count(store.sessions, UserSessionOf(appName, userId))
    ensures r.totalInteractions == Count(store.interactions, UserInteractionOf(appName, userId))
    ensures r.userQuestions == Count(UserInteractions(store, appName, userId), IsQuestion) <= r.totalInteractions
    ensures r.agentResponses == Count(UserInteractions(store, appName, userId), IsResponse) <= r.totalInteractions
    ensures r.agentTransfers == Count(UserInteractions(store, appName, userId), IsTransferred) <= r.totalInteractions
    ensures Ranks(Filter(UserInteractions(store, appName, userId), HasAgent), AgentOf, TopAgents, r.mostUsedAgents)
    ensures Tallies(UserSessions(store, appName, userId), CreatedDay, r.dailyActivity)
    ensures SumCounts(r.dailyActivity) == r.totalSessions
    ensures |r.sessions| == r.totalSessions
    ensures forall a, b | 0 <= a < b < |r.sessions| :: r.sessions[a].createdAt >= r.sessions[b].createdAt
    ensures multiset(r.sessions) == multiset(Map(UserSessions(store, appName, userId), Row))
  {
    var sessions := UserSessions(store, appName, userId);
    var xs := UserInteractions(store, appName, userId);
    var newest := SortBy(sessions, NegCreated);
    TopCounts(Filter(xs, HasAgent), AgentOf, TopAgents);
    MapPermutation(newest, sessions, Row);
    UserSessionSummary(
      userId, appName, |sessions|, |xs|,
      |Filter(xs, IsQuestion)|, |Filter(xs, IsResponse)|, |Filter(xs, IsTransferred)|,
      MostCommon(Tally(Filter(xs, HasAgent), AgentOf), TopAgents),
      Tally(sessions, CreatedDay),
      Map(newest, Row))
  }

  /** Creating a session adds one to its user's count and leaves every other
      user's count, and every interaction count, alone. */
  lemma UserSummaryAfterCreate(
    store: Store, appName: string, userId: string, state: Option<StateMap>,
    sessionId: Option<string>, generatedId: string, now: int, otherApp: string, otherUser: string)
    ensures var c := CreateSession(store, appName, userId, state, sessionId, generatedId, now);
      && GetUserSessionSummary(c.store, appName, userId).totalSessions ==
           GetUserSessionSummary(store, appName, userId).totalSessions + 1
      && ((otherApp, otherUser) != (appName, userId) ==>
            GetUserSessionSummary(c.store, otherApp, otherUser).totalSessions ==
              GetUserSessionSummary(store, otherApp, otherUser).totalSessions)
      && GetUserSessionSummary(c.store, otherApp, otherUser).totalInteractions ==
           GetUserSessionSummary(store, otherApp, otherUser).totalInteractions
  {
    var c := CreateSession(store, appName, userId, state, sessionId, generatedId, now);
    var d := c.store.sessions[|store.sessions|];
    assert c.store.sessions == store.sessions + [d];
    CountAfterSessionAppend(store, c.store, d, otherApp, otherUser);
  }

  /** Appending one session document counts it for its own user only. */
  lemma CountAfterSessionAppend(store: Store, after: Store, d: SessionDoc, otherApp: string, otherUser: string)
    requires after.sessions == store.sessions + [d] && after.interactions == store.interactions
    ensures Count(after.sessions, UserSessionOf(d.appName, d.userId)) ==
      Count(store.sessions, UserSessionOf(d.appName, d.userId)) + 1
    ensures (otherApp, otherUser) != (d.appName, d.userId) ==>
      Count(after.sessions, UserSessionOf(otherApp, otherUser)) == Count(store.sessions, UserSessionOf(otherApp, otherUser))
  {
    CountAppend(store.sessions, [d], UserSessionOf(d.appName, d.userId));
    CountAppend(store.sessions, [d], UserSessionOf(otherApp, otherUser));
    assert [d][..0] == [];
  }

  /** A created session is listed in its user's summary, dated by the clock. */
  lemma CreatedSessionListed(
    store: Store, appName: string, userId: string, state: Option<StateMap>,
    sessionId: Option<string>, generatedId: string, now: int)
    ensures var c := CreateSession(store, appName, userId, state, sessionId, generatedId, now);
      SessionRow(c.session.id, now, now) in GetUserSessionSummary(c.store, appName, userId).sessions
  {
    var c := CreateSession(store, appName, userId, state, sessionId, generatedId, now);
    var d := c.store.sessions[|store.sessions|];
    var docs := UserSessions(c.store, appName, userId);
    assert d in docs;
    var i :| 0 <= i < |docs| && docs[i] == d;
    assert Row(d) in Map(docs, Row);
    assert Row(d) in multiset(GetUserSessionSummary(c.store, appName, userId).sessions);
  }

  // ---------------------------------------------------------------------------
  // get_agent_usage_statistics

  /** The distinct users among some interactions. */
  function UserIds(xs: seq<Interaction>): (r: set<string>)
    ensures forall x | x in xs :: x.userId in r
    ensures forall u | u in r :: exists x | x in xs :: x.userId == u
    ensures |r| <= |xs|
    ensures xs != [] ==> |r| >= 1
  {
    if xs == [] then {}
    else
      var xs0 := xs[..|xs| - 1];
      assert xs == xs0 + [xs[|xs| - 1]];
      UserIds(xs0) + {xs[|xs| - 1].userId}
  }

  /** An agent and how many distinct users met it. */
  function UserCount(b: Bucket<string, Interaction>): (string, nat) {
    (b.key, |UserIds(b.items)|)
  }

  function InteractionDay(x: Interaction): int { DayOf(x.createdAt) }

  /** The interactions of an app recorded at or after `cutoff`. */
  function RecentOf(appName: string, cutoff: int): Interaction -> bool {
    (x: Interaction) => x.appName == appName && x.createdAt >= cutoff
  }

  function RecentInteractions(store: Store, appName: string, cutoff: int): seq<Interaction> {
    Filter(store.interactions, RecentOf(appName, cutoff))
  }

  datatype AgentUsage = AgentUsage(
    appName: string,
    analysisPeriodDays: int,
    totalInteractions: nat,
    totalTransfers: nat,
    agentTransferCounts: seq<(string, nat)>,
    agentUserCounts: seq<(string, nat)>,
    dailyTransferActivity: seq<(int, nat)>,
    mostPopularAgents: seq<(string, nat)>)

  /** `get_agent_usage_statistics`, with `now` for the clock: over the app's
      interactions recorded in the last `days` days, the transfers, the
      transfers per named agent, the distinct users per named agent, the
      transfers per day and the agents transferred to most. */
  function GetAgentUsageStatistics(store: Store, appName: string, days: int, now: int): (r: AgentUsage)
    ensures var recent := RecentInteractions(store, appName, now - days * SecondsPerDay);
      && r.appName == appName && r.analysisPeriodDays == days
      && r.totalInteractions == |recent|
      && r.totalTransfers == Count(recent, IsTransferred) <= r.totalInteractions
      && Tallies(Filter(Filter(recent, IsTransferred), HasAgent), AgentOf, r.agentTransferCounts)
      && SumCounts(r.agentTransferCounts) <= r.totalTransfers
      && Tallies(Filter(recent, IsTransferred), InteractionDay, r.dailyTransferActivity)
      && SumCounts(r.dailyTransferActivity) == r.totalTransfers
      && Ranks(Filter(Filter(recent, IsTransferred), HasAgent), AgentOf, TopAgents, r.mostPopularAgents)
      && (forall a, b | 0 <= a < b < |r.agentUserCounts| :: r.agentUserCounts[a].0 != r.agentUserCounts[b].0)
      && (forall i | 0 <= i < |r.agentUserCounts| ::
            var (agent, users) := r.agentUserCounts[i];
            var met := Matching(Filter(recent, HasAgent), AgentOf, agent);
            users == |UserIds(met)| && 1 <= users <= |met|)
      && (forall x | x in recent && HasAgent(x) :: exists e | e in r.agentUserCounts :: e.0 == AgentOf(x))
  {
    var recent := RecentInteractions(store, appName, now - days * SecondsPerDay);
    var transfers := Filter(recent, IsTransferred);
    var named := Filter(transfers, HasAgent);
    var counts := Tally(named, AgentOf);
    TopCounts(named, AgentOf, TopAgents);
    var users := AgentUsers(Filter(recent, HasAgent));
    AgentUsage(appName, days, |recent|, |transfers|, counts, users, Tally(transfers, InteractionDay),
               MostCommon(counts, TopAgents))
  }

  /** `defaultdict(set)` of users per agent, then each set's size: one entry per
      agent in the order agents are first met. */
  function AgentUsers(xs: seq<Interaction>): (r: seq<(string, nat)>)
    ensures forall a, b | 0 <= a < b < |r| :: r[a].0 != r[b].0
    ensures forall i | 0 <= i < |r| ::
      r[i].1 == |UserIds(Matching(xs, AgentOf, r[i].0))| && 1 <= r[i].1 <= |Matching(xs, AgentOf, r[i].0)|
    ensures forall x | x in xs :: exists e | e in r :: e.0 == AgentOf(x)
  {
    var groups := GroupBy(xs, AgentOf);
    UserCountKeys(groups);
    UserCountsBounded(xs, groups);
    UserCountsCover(xs, groups);
    Map(groups, UserCount)
  }

  lemma UserCountKeys(groups: seq<Bucket<string, Interaction>>)
    requires DistinctKeys(groups)
    ensures var r := Map(groups, UserCount); forall a, b | 0 <= a < b < |r| :: r[a].0 != r[b].0
  {
    var r := Map(groups, UserCount);
    assert forall i | 0 <= i < |r| :: r[i].0 == groups[i].key;
  }

  lemma UserCountsBounded(xs: seq<Interaction>, groups: seq<Bucket<string, Interaction>>)
    requires ItemsGrouped(xs, AgentOf, groups)
    ensures var r := Map(groups, UserCount);
      forall i | 0 <= i < |r| :: r[i].1 == |UserIds(Matching(xs, AgentOf, r[i].0))| && 1 <= r[i].1 <= |Matching(xs, AgentOf, r[i].0)|
  {
    var r := Map(groups, UserCount);
    forall i | 0 <= i < |r|
      ensures r[i].1 == |UserIds(Matching(xs, AgentOf, r[i].0))| && 1 <= r[i].1 <= |Matching(xs, AgentOf, r[i].0)|
    {
      assert r[i] == UserCount(groups[i]);
      OneUserCount(groups[i], Matching(xs, AgentOf, groups[i].key));
    }
  }

  lemma OneUserCount(g: Bucket<string, Interaction>, met: seq<Interaction>)
    requires g.items == met && met != []
    ensures UserCount(g).1 == |UserIds(met)| && 1 <= UserCount(g).1 <= |met|
  {
  }

  lemma UserCountsCover(xs: seq<Interaction>, groups: seq<Bucket<string, Interaction>>)
    requires Covered(xs, AgentOf, groups)
    ensures forall x | x in xs :: exists e | e in Map(groups, UserCount) :: e.0 == AgentOf(x)
  {
    var r := Map(groups, UserCount);
    forall x | x in xs ensures exists e | e in r :: e.0 == AgentOf(x) {
      var i :| 0 <= i < |groups| && groups[i].key == AgentOf(x);
      assert r[i] == UserCount(groups[i]);
      assert r[i] in r;
    }
  }

  /** A wider window counts at least as many interactions and transfers. */
  lemma UsageWindowGrows(store: Store, appName: string, days: int, moreDays: int, now: int)
    requires days <= moreDays
    ensures var narrow := GetAgentUsageStatistics(store, appName, days, now);
      var wide := GetAgentUsageStatistics(store, appName, moreDays, now);
      narrow.totalInteractions <= wide.totalInteractions && narrow.totalTransfers <= wide.totalTransfers
  {
    var p := RecentOf(appName, now - days * SecondsPerDay);
    var q := RecentOf(appName, now - moreDays * SecondsPerDay);
    assert now - moreDays * SecondsPerDay <= now - days * SecondsPerDay;
    CountMono(store.interactions, p, q);
    CountFilterMono(store.interactions, p, q, IsTransferred);
  }

  // ---------------------------------------------------------------------------
  // get_frequent_user_questions

  /** How many characters of a summary decide its group. */
  const QuestionPrefix: int := 100

  /** One group of similar questions. */
  datatype FrequentQuestion = FrequentQuestion(
    questionPattern: string,
    frequency: nat,
    exampleFullQuestion: string,
    usersAsked: nat,
    recentTimestamp: int)

  function AppQuestionOf(appName: string): Interaction -> bool {
    (x: Interaction) => x.appName == appName && x.isUserQuestion
  }

  function HasSummary(x: Interaction): bool { Truthy(x.contentSummary) }

  /** The group of a question: the first hundred characters of its summary,
      lower-cased, surrounding whitespace removed. */
  function QuestionKey(x: Interaction): string {
    Py.Strip(Lower(Take(x.contentSummary.GetOr(""), QuestionPrefix)))
  }

  /** The app's questions that carry a summary, in table order. */
  function AskedQuestions(store: Store, appName: string): seq<Interaction> {
    Filter(Filter(store.interactions, AppQuestionOf(appName)), HasSummary)
  }

  function Frequency(q: FrequentQuestion): nat { q.frequency }

  function NegFrequency(q: FrequentQuestion): int { -(q.frequency as int) }

  function Pattern(q: FrequentQuestion): string { q.questionPattern }

  /** The latest timestamp among some questions. */
  function LatestTime(xs: seq<Interaction>): (t: int)
    requires xs != []
    ensures forall x | x in xs :: x.timestamp <= t
    ensures exists x | x in xs :: x.timestamp == t
  {
    var m := MaxOf(Map(xs, InteractionTime));
    forall x | x in xs ensures x.timestamp <= m {
      var i :| 0 <= i < |xs| && xs[i] == x;
      assert Map(xs, InteractionTime)[i] == x.timestamp;
      assert Map(xs, InteractionTime)[i] in Map(xs, InteractionTime);
    }
    var i :| 0 <= i < |xs| && Map(xs, InteractionTime)[i] == m;
    assert xs[i] in xs;
    m
  }

  /** The report on one group; groups are never empty. */
  function Describe(b: Bucket<string, Interaction>): FrequentQuestion {
    if b.items == [] then FrequentQuestion(b.key, 0, "", 0, 0)
    else FrequentQuestion(b.key, |b.items|, b.items[0].contentSummary.GetOr(""), |UserIds(b.items)|, LatestTime(b.items))
  }

  /** `q` reports the elements of `xs` whose group under `key` is its
      pattern: there is at least one, `q` counts them and the distinct users
      who asked, quotes the first one, whose group is the pattern, and carries
      the latest time. */
  ghost predicate DescribesGroup(xs: seq<Interaction>, key: Interaction -> string, q: FrequentQuestion) {
    var group := Matching(xs, key, q.questionPattern);
    && group != []
    && q.frequency == |group|
    && key(group[0]) == q.questionPattern
    && q.exampleFullQuestion == group[0].contentSummary.GetOr("")
    && q.usersAsked == |UserIds(group)| && 1 <= q.usersAsked <= q.frequency
    && (forall x | x in group :: x.timestamp <= q.recentTimestamp)
    && (exists x | x in group :: x.timestamp == q.recentTimestamp)
  }

  /** One report per group, most frequent first, cut to `limit`. */
  function RankGroups(xs: seq<Interaction>, key: Interaction -> string, limit: int): seq<FrequentQuestion> {
    Take(SortBy(Map(GroupBy(xs, key), Describe), NegFrequency), limit)
  }

  /** `get_frequent_user_questions`: the app's summarised questions grouped by
      `QuestionKey`, one report per group, most frequent first (a stable sort,
      so equally frequent groups keep the order their first question was
      met), cut to `limit` as Python's slice does. */
  function GetFrequentUserQuestions(store: Store, appName: string, limit: int): (r: seq<FrequentQuestion>)
    ensures forall q | q in r :: DescribesGroup(AskedQuestions(store, appName), QuestionKey, q)
    ensures forall a, b | 0 <= a < b < |r| :: r[a].questionPattern != r[b].questionPattern
    ensures forall a, b | 0 <= a < b < |r| :: r[a].frequency >= r[b].frequency
    ensures 0 <= limit ==> |r| <= limit
    ensures forall x | x in AskedQuestions(store, appName) ::
      || (exists q | q in r :: q.questionPattern == QuestionKey(x))
      || ((limit < 0 || |r| == limit) &&
          forall q | q in r :: |Matching(AskedQuestions(store, appName), QuestionKey, QuestionKey(x))| <= q.frequency)
    ensures SumOf(r, Frequency) <= |AskedQuestions(store, appName)|
  {
    var xs := AskedQuestions(store, appName);
    RankReports(xs, QuestionKey, limit);
    RankDistinct(xs, QuestionKey, limit);
    RankOrder(xs, QuestionKey, limit);
    RankCover(xs, QuestionKey, limit);
    RankSum(xs, QuestionKey, limit);
    RankGroups(xs, QuestionKey, limit)
  }

  lemma RankReports(xs: seq<Interaction>, key: Interaction -> string, limit: int)
    ensures forall q | q in RankGroups(xs, key, limit) :: DescribesGroup(xs, key, q)
  {
    DescribedGroups(xs, key, GroupBy(xs, key));
    CutReports(xs, key, Map(GroupBy(xs, key), Describe), limit);
  }

  lemma CutReports(xs: seq<Interaction>, key: Interaction -> string, d: seq<FrequentQuestion>, limit: int)
    requires forall i | 0 <= i < |d| :: DescribesGroup(xs, key, d[i])
    ensures forall q | q in Take(SortBy(d, NegFrequency), limit) :: DescribesGroup(xs, key, q)
  {
    var ranked := SortBy(d, NegFrequency);
    RankedReports(xs, key, d, ranked, Take(ranked, limit));
  }

  lemma RankDistinct(xs: seq<Interaction>, key: Interaction -> string, limit: int)
    ensures var r := RankGroups(xs, key, limit);
      forall a, b | 0 <= a < b < |r| :: r[a].questionPattern != r[b].questionPattern
  {
    var groups := GroupBy(xs, key);
    DescribedDistinct(groups);
    var d := Map(groups, Describe);
    SortedCutDistinct(d, NegFrequency, Pattern, limit);
    PatternsDistinct(Take(SortBy(d, NegFrequency), limit));
  }

  lemma RankOrder(xs: seq<Interaction>, key: Interaction -> string, limit: int)
    ensures var r := RankGroups(xs, key, limit);
      && (forall a, b | 0 <= a < b < |r| :: r[a].frequency >= r[b].frequency)
      && (0 <= limit ==> |r| <= limit)
  {
    CutOrder(Map(GroupBy(xs, key), Describe), limit);
  }

  /** Cutting reports sorted by falling frequency leaves them sorted and at most `limit` long. */
  lemma CutOrder(d: seq<FrequentQuestion>, limit: int)
    ensures forall a, b | 0 <= a < b < |Take(SortBy(d, NegFrequency), limit)| ::
      Take(SortBy(d, NegFrequency), limit)[a].frequency >= Take(SortBy(d, NegFrequency), limit)[b].frequency
    ensures 0 <= limit ==> |Take(SortBy(d, NegFrequency), limit)| <= limit
  {
    var ranked := SortBy(d, NegFrequency);
    var r := Take(ranked, limit);
    forall a, b | 0 <= a < b < |r| ensures r[a].frequency >= r[b].frequency {
      assert NegFrequency(ranked[a]) <= NegFrequency(ranked[b]);
    }
  }

  lemma RankCover(xs: seq<Interaction>, key: Interaction -> string, limit: int)
    ensures var r := RankGroups(xs, key, limit);
      forall x | x in xs ::
        || (exists q | q in r :: q.questionPattern == key(x))
        || ((limit < 0 || |r| == limit) && forall q | q in r :: |Matching(xs, key, key(x))| <= q.frequency)
  {
    DescribedShape(GroupBy(xs, key));
    CutCover(xs, key, GroupBy(xs, key), Map(GroupBy(xs, key), Describe), limit);
  }

  lemma CutCover(xs: seq<Interaction>, key: Interaction -> string, groups: seq<Bucket<string, Interaction>>,
                 d: seq<FrequentQuestion>, limit: int)
    requires Covered(xs, key, groups) && ItemsGrouped(xs, key, groups)
    requires |d| == |groups|
    requires forall i | 0 <= i < |d| :: d[i].questionPattern == groups[i].key && d[i].frequency == |groups[i].items|
    ensures forall x | x in xs ::
      || (exists q | q in Take(SortBy(d, NegFrequency), limit) :: q.questionPattern == key(x))
      || ((limit < 0 || |Take(SortBy(d, NegFrequency), limit)| == limit) &&
          forall q | q in Take(SortBy(d, NegFrequency), limit) :: |Matching(xs, key, key(x))| <= q.frequency)
  {
    var ranked := SortBy(d, NegFrequency);
    SortedPrefix(ranked, NegFrequency, Take(ranked, limit));
    RankedCover(xs, key, groups, d, ranked, Take(ranked, limit), limit);
  }

  lemma RankSum(xs: seq<Interaction>, key: Interaction -> string, limit: int)
    ensures SumOf(RankGroups(xs, key, limit), Frequency) <= |xs|
  {
    var groups := GroupBy(xs, key);
    DescribedSum(groups);
    SortedCutSum(Map(groups, Describe), NegFrequency, limit, Frequency);
  }

  lemma PatternsDistinct(r: seq<FrequentQuestion>)
    requires forall a, b | 0 <= a < b < |r| :: Pattern(r[a]) != Pattern(r[b])
    ensures forall a, b | 0 <= a < b < |r| :: r[a].questionPattern != r[b].questionPattern
  {
  }

  lemma DescribeOne(xs: seq<Interaction>, key: Interaction -> string, b: Bucket<string, Interaction>)
    requires b.items == Matching(xs, key, b.key) && b.items != []
    ensures DescribesGroup(xs, key, Describe(b)) && Describe(b).questionPattern == b.key
  {
    MatchingMembers(xs, key, b.key);
    assert b.items[0] in b.items;
  }

  lemma DescribedGroups(xs: seq<Interaction>, key: Interaction -> string, groups: seq<Bucket<string, Interaction>>)
    requires ItemsGrouped(xs, key, groups)
    ensures forall i | 0 <= i < |Map(groups, Describe)| :: DescribesGroup(xs, key, Map(groups, Describe)[i])
  {
    forall i | 0 <= i < |groups| ensures DescribesGroup(xs, key, Describe(groups[i])) {
      DescribeOne(xs, key, groups[i]);
    }
  }

  lemma DescribedDistinct(groups: seq<Bucket<string, Interaction>>)
    requires DistinctKeys(groups)
    ensures var d := Map(groups, Describe); forall i, j | 0 <= i < j < |d| :: Pattern(d[i]) != Pattern(d[j])
  {
    var d := Map(groups, Describe);
    assert forall i | 0 <= i < |d| :: Pattern(d[i]) == groups[i].key;
  }

  lemma {:induction false} DescribedSum(groups: seq<Bucket<string, Interaction>>)
    ensures SumOf(Map(groups, Describe), Frequency) == SumSizes(groups)
    decreases |groups|
  {
    if groups != [] {
      var n := |groups| - 1;
      DescribedSum(groups[..n]);
      assert Map(groups, Describe)[..n] == Map(groups[..n], Describe);
    }
  }

  /** Every report that survives the sort and the cut describes its group. */
  lemma RankedReports(xs: seq<Interaction>, key: Interaction -> string, described: seq<FrequentQuestion>,
                      ranked: seq<FrequentQuestion>, r: seq<FrequentQuestion>)
    requires forall i | 0 <= i < |described| :: DescribesGroup(xs, key, described[i])
    requires multiset(ranked) == multiset(described)
    requires |r| <= |ranked| && r == ranked[..|r|]
    ensures forall q | q in r :: DescribesGroup(xs, key, q)
  {
    forall q | q in r ensures DescribesGroup(xs, key, q) {
      assert q in ranked;
      assert q in multiset(described);
      var i :| 0 <= i < |described| && described[i] == q;
    }
  }

  /** A question's group is reported, or it is no more frequent than every
      reported group and the cut removed it. */
  lemma RankedCover(xs: seq<Interaction>, key: Interaction -> string, groups: seq<Bucket<string, Interaction>>,
                    d: seq<FrequentQuestion>, ranked: seq<FrequentQuestion>, r: seq<FrequentQuestion>, limit: int)
    requires Covered(xs, key, groups) && ItemsGrouped(xs, key, groups)
    requires |d| == |groups|
    requires forall i | 0 <= i < |d| :: d[i].questionPattern == groups[i].key && d[i].frequency == |groups[i].items|
    requires multiset(ranked) == multiset(d)
    requires r == Take(ranked, limit)
    requires forall x, y | x in ranked && x !in r && y in r :: NegFrequency(y) <= NegFrequency(x)
    ensures forall x | x in xs ::
      || (exists q | q in r :: q.questionPattern == key(x))
      || ((limit < 0 || |r| == limit) && forall q | q in r :: |Matching(xs, key, key(x))| <= q.frequency)
  {
    forall x | x in xs
      ensures || (exists q | q in r :: q.questionPattern == key(x))
              || ((limit < 0 || |r| == limit) && forall q | q in r :: |Matching(xs, key, key(x))| <= q.frequency)
    {
      var i :| 0 <= i < |groups| && groups[i].key == key(x);
      assert d[i] in multiset(ranked);
      CoverOne(key(x), |Matching(xs, key, key(x))|, d[i], ranked, r, limit);
    }
  }

  /** Each report carries its group's key and size. */
  lemma DescribedShape(groups: seq<Bucket<string, Interaction>>)
    ensures |Map(groups, Describe)| == |groups|
    ensures forall i | 0 <= i < |groups| ::
      Map(groups, Describe)[i].questionPattern == groups[i].key && Map(groups, Describe)[i].frequency == |groups[i].items|
  {
  }

  lemma CoverOne(k: string, n: nat, g: FrequentQuestion, ranked: seq<FrequentQuestion>,
                 r: seq<FrequentQuestion>, limit: int)
    requires g.questionPattern == k && g.frequency == n
    requires g in multiset(ranked)
    requires r == Take(ranked, limit)
    requires forall x, y | x in ranked && x !in r && y in r :: NegFrequency(y) <= NegFrequency(x)
    ensures || (exists q | q in r :: q.questionPattern == k)
            || ((limit < 0 || |r| == limit) && forall q | q in r :: n <= q.frequency)
  {
    if 0 <= limit && |r| < limit {
      assert r == ranked;
    }
    assert g in ranked;
    if g in r {
      assert g.questionPattern == k;
    }
  }

  // ---------------------------------------------------------------------------
  // export_session_data

  /** Everything stored about one session. */
  datatype ExportedSession = ExportedSession(
    session: Option<SessionDoc>,
    events: seq<EventDoc>,
    interactions: seq<Interaction>,
    summary: InteractionSummary)

  /** `export_session_data`: the session's first document, its event documents
      and interactions in time order (stable sorts), and its interaction
      summary, whose timeline is the exported interactions. */
  function ExportSessionData(store: Store, k: SessionKey): (r: ExportedSession)
    ensures r.session.None? <==> forall d | d in store.sessions :: d.Key() != k
    ensures r.session.Some? ==> r.session.value in store.sessions && r.session.value.Key() == k
    ensures r.session.Some? ==> exists i | 0 <= i < |store.sessions| ::
      store.sessions[i] == r.session.value && forall j | 0 <= j < i :: store.sessions[j].Key() != k
    ensures SortedBy(r.events, DocTime)
    ensures multiset(r.events) == multiset(Filter(store.events, EventOf(k)))
    ensures SortedBy(r.interactions, InteractionTime)
    ensures multiset(r.interactions) == multiset(SessionInteractions(store, k))
    ensures r.summary == GetAgentInteractionSummary(store, k)
    ensures r.summary.timeline == Map(r.interactions, Entry)
  {
    ExportedSession(
      Find(store.sessions, SessionOf(k)),
      SortBy(Filter(store.events, EventOf(k)), DocTime),
      SortBy(SessionInteractions(store, k), InteractionTime),
      GetAgentInteractionSummary(store, k))
  }

  /** The export finds the session exactly when `get_session` does, and holds
      the same events. */
  lemma ExportMatchesGetSession(store: Store, k: SessionKey)
    ensures ExportSessionData(store, k).session.Some? <==> GetSession(store, k, None).Some?
    ensures GetSession(store, k, None).Some? ==>
      multiset(Map(ExportSessionData(store, k).events, DocEvent)) == multiset(GetSession(store, k, None).value.events)
  {
    var x := ExportSessionData(store, k);
    MapPermutation(x.events, Filter(store.events, EventOf(k)), DocEvent);
  }
}

=== FILE: derive.dfy ===
/** The interaction fact recorded for every appended event: whether it is a
    user question, a model response or a hand-off to another agent, with a
    short summary of its text. */
module Derive {
  import opened Py
  import opened Seqs
  import opened Records

  /** At most this many characters of the first part's text are kept. */
  const SummaryLength := 200

  /** The function call by which one agent hands the conversation to another. */
  const TransferFunction := "transfer_to_agent"

  /** The argument of that call naming the target agent. */
  const AgentNameArg := "agent_name"

  const UserAuthor := "user"
  const ModelAuthor := "model"

  /** The text of the first part, when there is a first part and its text is set. */
  function FirstText(c: Content): Option<string> {
    match c.parts
    case Present(ps) =>
      if ps != [] && ps[0].text.Present? then Some(ps[0].text.value) else None
    case _ => None
  }

  predicate IsTransfer(c: FunctionCall) {
    c.name == Some(TransferFunction)
  }

  /** The call names its target agent. */
  predicate NamesAgent(c: FunctionCall) {
    c.args.Present? && AgentNameArg in c.args.value
  }

  /** The function calls of an event; a missing or `None` list holds none. */
  function Calls(e: Event): seq<FunctionCall> {
    if e.actions.Some? && e.actions.value.functionCalls.Present? then e.actions.value.functionCalls.value
    else []
  }

  /** `i` is the position of the first transfer call. */
  predicate FirstTransferAt(cs: seq<FunctionCall>, i: int) {
    0 <= i < |cs| && IsTransfer(cs[i]) && forall j | 0 <= j < i :: !IsTransfer(cs[j])
  }

  /** Whether the calls hold a transfer, and the agent the first transfer names. */
  function TransferTarget(cs: seq<FunctionCall>): (r: (bool, Option<string>))
    ensures r.0 <==> exists i | 0 <= i < |cs| :: IsTransfer(cs[i])
    ensures r.1.Some? <==> exists i | FirstTransferAt(cs, i) :: NamesAgent(cs[i])
    ensures r.1.Some? ==> forall i | FirstTransferAt(cs, i) :: cs[i].args.value[AgentNameArg] == r.1.value
  {
    match FindIndex(cs, IsTransfer)
    case None => (false, None)
    case Some(i) =>
      assert FirstTransferAt(cs, i);
      assert forall j | FirstTransferAt(cs, j) :: j == i;
      (true, if NamesAgent(cs[i]) then Some(cs[i].args.value[AgentNameArg]) else None)
  }

  /** The summary of a content: the first `SummaryLength` characters of its first text. */
  function Summary(c: Content): (r: Option<string>)
    ensures r.Some? <==> FirstText(c).Some?
    ensures r.Some? ==> |r.value| == Min(SummaryLength, |FirstText(c).value|)
    ensures r.Some? ==> r.value == FirstText(c).value[..|r.value|]
  {
    match FirstText(c)
    case None => None
    case Some(t) => Some(Take(t, SummaryLength))
  }

  /** The interaction recorded for `e` in session `k` at time `now`. A field the
      code reads that holds `None` is treated as missing, which is the behaviour
      the code evidently intends (see `DeriveInteractionAsWritten`). */
  function DeriveInteraction(k: SessionKey, e: Event, now: int): (r: Interaction)
    ensures r.Key() == k && r.eventId == e.id && r.author == e.author
    ensures r.timestamp == e.timestamp && r.createdAt == now
    ensures r.isUserQuestion <==> e.content.Some? && e.author == UserAuthor
    ensures r.isAgentResponse <==> e.content.Some? && e.author == ModelAuthor
    ensures !(r.isUserQuestion && r.isAgentResponse)
    ensures r.contentType == Some(UserInput) <==> r.isUserQuestion
    ensures r.contentType == Some(AgentResponse) <==> r.isAgentResponse
    ensures r.contentSummary.Some? <==>
      (r.isUserQuestion || r.isAgentResponse) && FirstText(e.content.value).Some?
    ensures r.contentSummary.Some? ==>
      var t := FirstText(e.content.value).value;
      |r.contentSummary.value| == Min(SummaryLength, |t|) && r.contentSummary.value == t[..|r.contentSummary.value|]
    ensures r.isTransferToAgent <==> exists i | 0 <= i < |Calls(e)| :: IsTransfer(Calls(e)[i])
    ensures r.agentName.Some? <==> exists i | FirstTransferAt(Calls(e), i) :: NamesAgent(Calls(e)[i])
    ensures r.agentName.Some? ==>
      forall i | FirstTransferAt(Calls(e), i) :: Calls(e)[i].args.value[AgentNameArg] == r.agentName.value
  {
    var question := e.content.Some? && e.author == UserAuthor;
    var response := e.content.Some? && e.author == ModelAuthor;
    var transfer := TransferTarget(Calls(e));
    Interaction(
      k.appName, k.userId, k.id, e.id, e.author, e.timestamp,
      if question then Some(UserInput) else if response then Some(AgentResponse) else None,
      if question || response then Summary(e.content.value) else None,
      transfer.1,
      question, response, transfer.0,
      now)
  }

  // ---------------------------------------------------------------------------
  // The derivation as the code is written: reading a field that holds `None`
  // raises instead of being skipped.

  datatype Outcome<T> = Ok(value: T) | TypeError

  /** `parts[0]['text'][:200]` on a `None` text raises. */
  function SummaryAsWritten(c: Content): Outcome<Option<string>> {
    match c.parts
    case Present(ps) =>
      if ps == [] then Ok(None)
      else (match ps[0].text
        case Absent => Ok(None)
        case Null => TypeError
        case Present(t) => Ok(Some(Take(t, SummaryLength))))
    case _ => Ok(None)
  }

  /** Iterating a `None` call list raises, and so does `'agent_name' in None`. */
  function TransferAsWritten(e: Event): Outcome<(bool, Option<string>)> {
    if e.actions.None? then Ok((false, None))
    else match e.actions.value.functionCalls
      case Absent => Ok((false, None))
      case Null => TypeError
      case Present(cs) =>
        match FindIndex(cs, IsTransfer)
        case None => Ok((false, None))
        case Some(i) =>
          match cs[i].args
          case Absent => Ok((true, None))
          case Null => TypeError
          case Present(a) => Ok((true, if AgentNameArg in a then Some(a[AgentNameArg]) else None))
  }

  function DeriveInteractionAsWritten(k: SessionKey, e: Event, now: int): Outcome<Interaction> {
    var question := e.content.Some? && e.author == UserAuthor;
    var response := e.content.Some? && e.author == ModelAuthor;
    var summary := if question || response then SummaryAsWritten(e.content.value) else Ok(None);
    var transfer := TransferAsWritten(e);
    if summary.TypeError? || transfer.TypeError? then TypeError
    else Ok(Interaction(
      k.appName, k.userId, k.id, e.id, e.author, e.timestamp,
      if question then Some(UserInput) else if response then Some(AgentResponse) else None,
      summary.value,
      transfer.value.1,
      question, response, transfer.value.0,
      now))
  }

  /** The fields whose `None` makes the code raise. */
  predicate ReadsNull(e: Event) {
    || (e.content.Some? && (e.author == UserAuthor || e.author == ModelAuthor)
        && e.content.value.parts.Present? && e.content.value.parts.value != []
        && e.content.value.parts.value[0].text.Null?)
    || (e.actions.Some? && e.actions.value.functionCalls.Null?)
    || (exists i | 0 <= i < |Calls(e)| && FirstTransferAt(Calls(e), i) :: Calls(e)[i].args.Null?)
  }

  /** The code raises exactly when it reads a `None`, and otherwise records
      what the corrected derivation records. */
  lemma AsWrittenAgrees(k: SessionKey, e: Event, now: int)
    ensures DeriveInteractionAsWritten(k, e, now).TypeError? <==> ReadsNull(e)
    ensures !ReadsNull(e) ==> DeriveInteractionAsWritten(k, e, now) == Ok(DeriveInteraction(k, e, now))
  {
    if e.content.Some? {
      SummaryAgrees(e.content.value);
    }
    TransferAgrees(e);
  }

  /** The summary raises exactly on a `None` first text. */
  lemma SummaryAgrees(c: Content)
    ensures SummaryAsWritten(c).TypeError? <==>
      c.parts.Present? && c.parts.value != [] && c.parts.value[0].text.Null?
    ensures SummaryAsWritten(c).Ok? ==> SummaryAsWritten(c).value == Summary(c)
  {
  }

  /** The transfer lookup raises exactly on a `None` call list or a `None`
      `args` of the first transfer call. */
  lemma TransferAgrees(e: Event)
    ensures TransferAsWritten(e).TypeError? <==>
      || (e.actions.Some? && e.actions.value.functionCalls.Null?)
      || (exists i | 0 <= i < |Calls(e)| && FirstTransferAt(Calls(e), i) :: Calls(e)[i].args.Null?)
    ensures TransferAsWritten(e).Ok? ==> TransferAsWritten(e).value == TransferTarget(Calls(e))
  {
    var cs := Calls(e);
    if e.actions.Some? && e.actions.value.functionCalls.Present? {
      match FindIndex(cs, IsTransfer)
      case None =>
      case Some(i) =>
        assert FirstTransferAt(cs, i);
        assert forall j | FirstTransferAt(cs, j) :: j == i;
    }
  }

  /** A model reply whose first part is a function call has a `None` text:
      the code raises where a missing summary was meant. */
  lemma NullTextRaises()
    ensures var e := Event("e1", "inv", ModelAuthor, None, 0, Some(Content(Present([Part(Null)]))), None);
      && DeriveInteractionAsWritten(SessionKey("app", "u", "s"), e, 0) == TypeError
      && DeriveInteraction(SessionKey("app", "u", "s"), e, 0).isAgentResponse
      && DeriveInteraction(SessionKey("app", "u", "s"), e, 0).contentSummary == None
  {
  }

  /** A transfer call whose `args` is `None` makes the code raise where the
      transfer without a named agent was meant. */
  lemma NullArgsRaises()
    ensures var e := Event("e1", "inv", "agent", None, 0, None,
                           Some(Actions(Present([FunctionCall(Some(TransferFunction), Null)]), map[])));
      && DeriveInteractionAsWritten(SessionKey("app", "u", "s"), e, 0) == TypeError
      && DeriveInteraction(SessionKey("app", "u", "s"), e, 0).isTransferToAgent
      && DeriveInteraction(SessionKey("app", "u", "s"), e, 0).agentName == None
  {
    var cs := [FunctionCall(Some(TransferFunction), Null)];
    assert FirstTransferAt(cs, 0);
  }
}

=== FILE: loops.dfy ===
/** The repeated-pattern scan over a session's sequence of agent transfers:
    for every start and every end it looks for the first later copy of that
    stretch, and reports stretches of at least three transfers. */
module Loops {
  import opened Py

  /** A reported repetition: `pattern` starts at `startIndex` and its first
      later copy ends at `endIndex`. */
  datatype Loop = Loop(pattern: seq<string>, startIndex: nat, endIndex: nat, repetitions: nat, patternLength: nat)

  /** Shorter stretches are never reported. */
  const MinLoopLength: nat := 3

  /** Every report counts the pattern and its one copy. */
  const Repetitions: nat := 2

  /** The `n` elements from `k` on copy the `n` elements from `i` on, and the
      copy starts at or after the end of the original. */
  predicate RepeatsAt(s: seq<string>, i: nat, n: nat, k: nat) {
    i + n <= k < |s| && k + n <= |s| && s[k..k + n] == s[i..i + n]
  }

  /** The stretch of `n` elements from `i` has a later copy. */
  predicate HasRepeat(s: seq<string>, i: nat, n: nat) {
    exists k | i + n <= k < |s| :: RepeatsAt(s, i, n, k)
  }

  /** What a report promises: a pattern of at least `MinLoopLength`
      transfers, taken from the sequence, followed later by a copy that is the
      first one at or after the pattern's end. */
  predicate ValidLoop(s: seq<string>, l: Loop) {
    var i, n := l.startIndex, l.patternLength;
    var k := l.endIndex + 1 - n;
    && n >= MinLoopLength && l.repetitions == Repetitions
    && 0 <= k && l.endIndex < |s| && i + n <= |s|
    && l.pattern == s[i..i + n]
    && RepeatsAt(s, i, n, k)
    && forall k' | i + n <= k' < k :: !RepeatsAt(s, i, n, k')
  }

  /** Reports come in order of start, then of length; so no stretch twice. */
  predicate Increasing(loops: seq<Loop>) {
    forall a, b | 0 <= a < b < |loops| ::
      || loops[a].startIndex < loops[b].startIndex
      || (loops[a].startIndex == loops[b].startIndex && loops[a].patternLength < loops[b].patternLength)
  }

  /** Some report covers the stretch of `n` elements from `i`. */
  predicate Reported(loops: seq<Loop>, i: nat, n: nat) {
    exists t | 0 <= t < |loops| :: loops[t].startIndex == i && loops[t].patternLength == n
  }

  lemma ReportedGrows(loops: seq<Loop>, more: seq<Loop>)
    ensures forall i, n | Reported(loops, i, n) :: Reported(loops + more, i, n)
  {
    forall i, n | Reported(loops, i, n) ensures Reported(loops + more, i, n) {
      var t :| 0 <= t < |loops| && loops[t].startIndex == i && loops[t].patternLength == n;
      assert (loops + more)[t] == loops[t];
    }
  }

  /** The innermost loop: the first `k` at or after `i + n` where the stretch repeats. */
  method FindRepeat(s: seq<string>, i: nat, n: nat) returns (r: Option<nat>)
    requires 0 < n && i + n <= |s|
    ensures r.Some? ==> RepeatsAt(s, i, n, r.value) && forall k | i + n <= k < r.value :: !RepeatsAt(s, i, n, k)
    ensures r.None? ==> !HasRepeat(s, i, n)
  {
    var k := i + n;
    while k < |s|
      invariant i + n <= k <= |s|
      invariant forall k' | i + n <= k' < k :: !RepeatsAt(s, i, n, k')
    {
      if k + n <= |s| && s[k..k + n] == s[i..i + n] {
        return Some(k);
      }
      k := k + 1;
    }
    return None;
  }

  /** The report for a stretch and its first copy. */
  function LoopAt(s: seq<string>, i: nat, n: nat, k: nat): (l: Loop)
    requires MinLoopLength <= n
    requires RepeatsAt(s, i, n, k) && forall k' | i + n <= k' < k :: !RepeatsAt(s, i, n, k')
    ensures ValidLoop(s, l) && l.startIndex == i && l.patternLength == n
  {
    Loop(s[i..i + n], i, k + n - 1, Repetitions, n)
  }

  /** The middle loop: every end `j` for the start `i`, in increasing order. */
  method ScanFrom(s: seq<string>, i: nat, loops0: seq<Loop>) returns (loops: seq<Loop>)
    requires i < |s|
    requires forall l | l in loops0 :: ValidLoop(s, l) && l.startIndex < i
    requires Increasing(loops0)
    ensures |loops0| <= |loops| && loops[..|loops0|] == loops0
    ensures forall l | l in loops :: ValidLoop(s, l) && l.startIndex <= i
    ensures Increasing(loops)
    ensures forall n | MinLoopLength <= n && HasRepeat(s, i, n) :: Reported(loops, i, n)
  {
    loops := loops0;
    var j := i + 2;
    while j <= |s|
      invariant i + 2 <= j
      invariant |loops0| <= |loops| && loops[..|loops0|] == loops0
      invariant forall l | l in loops :: ValidLoop(s, l)
      invariant forall l | l in loops :: l.startIndex < i || (l.startIndex == i && i + l.patternLength < j)
      invariant Increasing(loops)
      invariant forall n | MinLoopLength <= n && i + n < j && HasRepeat(s, i, n) :: Reported(loops, i, n)
    {
      if j - i >= MinLoopLength {
        var k := FindRepeat(s, i, j - i);
        if k.Some? {
          var l := LoopAt(s, i, j - i, k.value);
          ReportedGrows(loops, [l]);
          loops := loops + [l];
          assert loops[|loops| - 1] == l;
        }
      }
      j := j + 1;
    }
    forall n | MinLoopLength <= n && HasRepeat(s, i, n) ensures Reported(loops, i, n) {
      assert i + n < j;
    }
  }

  /** `_find_loops_in_sequence`: every stretch `s[i..j]` of at least
      `MinLoopLength` elements that has a later copy is reported once, with its
      first copy, in order of `i` and then `j`. */
  method FindLoops(s: seq<string>) returns (loops: seq<Loop>)
    ensures forall l | l in loops :: ValidLoop(s, l)
    ensures Increasing(loops)
    ensures forall i, n | MinLoopLength <= n && HasRepeat(s, i, n) :: Reported(loops, i, n)
    ensures |s| < 2 * MinLoopLength ==> loops == []
  {
    loops := [];
    var i := 0;
    while i < |s|
      invariant 0 <= i <= |s|
      invariant forall l | l in loops :: ValidLoop(s, l) && l.startIndex < i
      invariant Increasing(loops)
      invariant forall i', n | 0 <= i' < i && MinLoopLength <= n && HasRepeat(s, i', n) :: Reported(loops, i', n)
    {
      var before := loops;
      loops := ScanFrom(s, i, loops);
      assert loops == before + loops[|before|..];
      ReportedGrows(before, loops[|before|..]);
      i := i + 1;
    }
    if loops != [] {
      assert loops[0] in loops;
    }
  }
}

=== FILE: py.dfy ===
/** Python value semantics the session service relies on: optional values,
    fields of a dumped dictionary, truthiness, slicing and the string
    normalisation used for question grouping. */
module Py {

  /** `None` or a value. */
  datatype Option<+T> = None | Some(value: T) {
    function GetOr(default: T): T {
      match this
      case Some(v) => v
      case None => default
    }
  }

  /** One entry read from a dumped dictionary: the key may be missing,
      may hold `None`, or may hold a value. */
  datatype Field<+T> = Absent | Null | Present(value: T)

  /** Python's truthiness of an optional string: present and non-empty. */
  predicate Truthy(s: Option<string>) {
    s.Some? && s.value != ""
  }

  /** Python's `s.startswith(p)`. */
  predicate StartsWith(s: string, p: string) {
    |p| <= |s| && s[..|p|] == p
  }

  function Min(a: int, b: int): int { if a <= b then a else b }

  function Max(a: int, b: int): int { if a <= b then b else a }

  /** Python's slice `s[:n]`, including the negative bound that counts from the end. */
  function Take<T>(s: seq<T>, n: int): (r: seq<T>)
    ensures 0 <= n ==> |r| == Min(n, |s|)
    ensures n < 0 ==> |r| == Max(0, |s| + n)
    ensures r == s[..|r|]
  {
    if 0 <= n then (if n <= |s| then s[..n] else s)
    else if 0 <= |s| + n then s[..|s| + n]
    else []
  }

  /** Python's `reversed`. */
  function Reverse<T>(s: seq<T>): (r: seq<T>)
    ensures |r| == |s|
    ensures forall i | 0 <= i < |s| :: r[i] == s[|s| - 1 - i]
    ensures multiset(r) == multiset(s)
  {
    if s == [] then []
    else
      assert s == s[..|s| - 1] + [s[|s| - 1]];
      [s[|s| - 1]] + Reverse(s[..|s| - 1])
  }

  /** The characters `str.isspace` accepts, hence the ones `str.strip` removes. */
  predicate IsSpace(c: char) {
    || '\t' <= c <= '\r'
    || '\U{1C}' <= c <= '\U{1F}'
    || c == ' '
    || c == '\U{85}'
    || c == '\U{A0}'
    || c == '\U{1680}'
    || '\U{2000}' <= c <= '\U{200A}'
    || c == '\U{2028}'
    || c == '\U{2029}'
    || c == '\U{202F}'
    || c == '\U{205F}'
    || c == '\U{3000}'
  }

  predicate IsUpper(c: char) { 'A' <= c <= 'Z' }

  /** `str.lower` on the ASCII letters. */
  function LowerChar(c: char): (r: char)
    ensures !IsUpper(r)
    ensures !IsUpper(c) ==> r == c
  {
    if IsUpper(c) then (c as int + 32) as char else c
  }

  function Lower(s: string): (r: string)
    ensures |r| == |s|
    ensures forall i | 0 <= i < |s| :: r[i] == LowerChar(s[i])
  {
    if s == [] then [] else [LowerChar(s[0])] + Lower(s[1..])
  }

  function StripLeft(s: string): (r: string)
    ensures |r| <= |s| && r == s[|s| - |r|..]
    ensures r != [] ==> !IsSpace(r[0])
    ensures forall i | 0 <= i < |s| - |r| :: IsSpace(s[i])
  {
    if s != [] && IsSpace(s[0]) then StripLeft(s[1..]) else s
  }

  function StripRight(s: string): (r: string)
    ensures |r| <= |s| && r == s[..|r|]
    ensures r != [] ==> !IsSpace(r[|r| - 1])
    ensures forall i | |r| <= i < |s| :: IsSpace(s[i])
  {
    if s != [] && IsSpace(s[|s| - 1]) then StripRight(s[..|s| - 1]) else s
  }

  /** Python's `str.strip()`: the longest infix without surrounding whitespace. */
  function Strip(s: string): (r: string)
    ensures |r| <= |s|
    ensures r != [] ==> !IsSpace(r[0]) && !IsSpace(r[|r| - 1])
    ensures (forall i | 0 <= i < |s| :: !IsSpace(s[i])) ==> r == s
    ensures exists i :: SpaceAround(s, r, i)
  {
    var l := StripLeft(s);
    var r := StripRight(l);
    assert SpaceAround(s, r, |s| - |l|);
    r
  }

  /** `r` sits at `i` in `s`, with nothing but whitespace before and after it. */
  predicate SpaceAround(s: string, r: string, i: int) {
    && 0 <= i <= |s| - |r| && r == s[i..i + |r|]
    && (forall m | 0 <= m < i :: IsSpace(s[m]))
    && (forall m | i + |r| <= m < |s| :: IsSpace(s[m]))
  }
}

=== FILE: records.dfy ===
/** The documents of the five tables and the objects the session service hands
    out. Content and actions are held in their dumped-dictionary form, so every
    field the service reads may be missing, hold `None`, or hold a value. */
module Records {
  import opened Py
  import opened Scopes

  /** One part of a message; only its text is read. */
  datatype Part = Part(text: Field<string>)

  /** A dumped message content. */
  datatype Content = Content(parts: Field<seq<Part>>)

  /** A dumped function call; `args` maps argument names to their values. */
  datatype FunctionCall = FunctionCall(name: Option<string>, args: Field<map<string, string>>)

  /** The dumped actions of an event. */
  datatype Actions = Actions(functionCalls: Field<seq<FunctionCall>>, stateDelta: StateMap)

  /** An event of a conversation; `timestamp` is in whole seconds. */
  datatype Event = Event(
    id: string,
    invocationId: string,
    author: string,
    branch: Option<string>,
    timestamp: int,
    content: Option<Content>,
    actions: Option<Actions>)

  /** The triple every per-session query filters on. */
  datatype SessionKey = SessionKey(appName: string, userId: string, id: string)

  /** A row of the `sessions` table; it stores the session-scope state only. */
  datatype SessionDoc = SessionDoc(
    appName: string,
    userId: string,
    id: string,
    state: StateMap,
    createdAt: int,
    updatedAt: int)
  {
    function Key(): SessionKey { SessionKey(appName, userId, id) }
  }

  /** A row of the `events` table: the event plus the session it belongs to. */
  datatype EventDoc = EventDoc(appName: string, userId: string, sessionId: string, event: Event)
  {
    function Key(): SessionKey { SessionKey(appName, userId, sessionId) }
  }

  /** A row of the `app_state` table. */
  datatype AppStateDoc = AppStateDoc(appName: string, state: StateMap, createdAt: int)

  /** A row of the `user_state` table. */
  datatype UserStateDoc = UserStateDoc(appName: string, userId: string, state: StateMap, createdAt: int)

  datatype ContentType = UserInput | AgentResponse

  /** A row of the `agent_interactions` table: the facts derived from one event. */
  datatype Interaction = Interaction(
    appName: string,
    userId: string,
    sessionId: string,
    eventId: string,
    author: string,
    timestamp: int,
    contentType: Option<ContentType>,
    contentSummary: Option<string>,
    agentName: Option<string>,
    isUserQuestion: bool,
    isAgentResponse: bool,
    isTransferToAgent: bool,
    createdAt: int)
  {
    function Key(): SessionKey { SessionKey(appName, userId, sessionId) }
  }

  /** The database: one sequence of documents per table, in insertion order. */
  datatype Store = Store(
    sessions: seq<SessionDoc>,
    events: seq<EventDoc>,
    appStates: seq<AppStateDoc>,
    userStates: seq<UserStateDoc>,
    interactions: seq<Interaction>)

  const EmptyStore := Store([], [], [], [], [])

  /** The session object returned to callers: the merged state and its events. */
  datatype Session = Session(
    appName: string,
    userId: string,
    id: string,
    state: StateMap,
    events: seq<Event>,
    lastUpdateTime: int)
  {
    function Key(): SessionKey { SessionKey(appName, userId, id) }
  }

  // The table queries, each as one value so that every caller filters with the same test.

  function SessionOf(k: SessionKey): SessionDoc -> bool {
    (d: SessionDoc) => d.Key() == k
  }

  function EventOf(k: SessionKey): EventDoc -> bool {
    (d: EventDoc) => d.Key() == k
  }

  function InteractionOf(k: SessionKey): Interaction -> bool {
    (i: Interaction) => i.Key() == k
  }

  function AppDocOf(appName: string): AppStateDoc -> bool {
    (d: AppStateDoc) => d.appName == appName
  }

  function UserDocOf(appName: string, userId: string): UserStateDoc -> bool {
    (d: UserStateDoc) => d.appName == appName && d.userId == userId
  }

  function EventTime(e: Event): int { e.timestamp }

  function DocTime(d: EventDoc): int { d.event.timestamp }

  function InteractionTime(i: Interaction): int { i.timestamp }

  function IsQuestion(i: Interaction): bool { i.isUserQuestion }

  function IsResponse(i: Interaction): bool { i.isAgentResponse }

  function IsTransferred(i: Interaction): bool { i.isTransferToAgent }

  /** The agent names that Python's truthiness keeps: set and non-empty. */
  function AgentNames(xs: seq<Interaction>): (r: set<string>)
    ensures forall a | a in r :: exists x | x in xs :: x.agentName == Some(a) && a != ""
    ensures forall x | x in xs && Truthy(x.agentName) :: x.agentName.value in r
  {
    set x | x in xs && Truthy(x.agentName) :: x.agentName.value
  }
}

=== FILE: scopes.dfy ===
/** The three state scopes of a session. One flat mapping is split by key
    prefix into app-wide, per-user and per-session parts, and the parts are
    merged back into one mapping with the app and user prefixes restored. */
module Scopes {
  import opened Py

  /** A JSON value held in a state mapping; the session service never looks inside it. */
  datatype Value = Null | Bool(b: bool) | Int(i: int) | Str(s: string)

  type StateMap = map<string, Value>

  /** The reserved key prefixes of the agent framework's `State` class. */
  const AppPrefix: string := "app:"
  const UserPrefix: string := "user:"

  /** A key that goes to the session scope: it carries neither reserved prefix. */
  predicate IsSessionKey(k: string) {
    !StartsWith(k, AppPrefix) && !StartsWith(k, UserPrefix)
  }

  /** `k` without its first `|p|` characters. */
  function Unprefix(k: string, p: string): string
    requires StartsWith(k, p)
  {
    k[|p|..]
  }

  lemma Prefixing(p: string, j: string)
    ensures StartsWith(p + j, p) && Unprefix(p + j, p) == j
  {
    assert (p + j)[..|p|] == p;
  }

  lemma Unprefixing(k: string, p: string)
    requires StartsWith(k, p)
    ensures p + Unprefix(k, p) == k
  {
    assert k == k[..|p|] + k[|p|..];
  }

  /** No key carries both reserved prefixes. */
  lemma PrefixesDisjoint(k: string)
    ensures StartsWith(k, AppPrefix) ==> !StartsWith(k, UserPrefix)
  {
    if StartsWith(k, AppPrefix) {
      assert k[0] == 'a';
    }
  }

  /** The app, user and session parts of one state mapping. */
  datatype Split = Split(app: StateMap, user: StateMap, session: StateMap)

  /** The entries of `state` whose key starts with `p`, with `p` removed. */
  function Strip(state: StateMap, p: string): StateMap {
    var stripped := set k | k in state && StartsWith(k, p) :: Unprefix(k, p);
    map j | j in stripped && p + j in state :: state[p + j]
  }

  /** `_extract_state_delta`: the app prefix is tested first, then the user
      prefix; a matched prefix is stripped, other keys pass unchanged. Every key
      lands in exactly one of the three parts. */
  function ExtractStateDelta(state: StateMap): (d: Split)
    ensures forall k | k in state ::
      if StartsWith(k, AppPrefix) then
        Unprefix(k, AppPrefix) in d.app && d.app[Unprefix(k, AppPrefix)] == state[k] && k !in d.session
      else if StartsWith(k, UserPrefix) then
        Unprefix(k, UserPrefix) in d.user && d.user[Unprefix(k, UserPrefix)] == state[k] && k !in d.session
      else
        k in d.session && d.session[k] == state[k]
  {
    var d := Split(Strip(state, AppPrefix), Strip(state, UserPrefix), map k | k in state && IsSessionKey(k) :: state[k]);
    forall k | k in state && StartsWith(k, AppPrefix)
      ensures Unprefix(k, AppPrefix) in d.app && d.app[Unprefix(k, AppPrefix)] == state[k]
    {
      Unprefixing(k, AppPrefix);
    }
    forall k | k in state && !StartsWith(k, AppPrefix) && StartsWith(k, UserPrefix)
      ensures Unprefix(k, UserPrefix) in d.user && d.user[Unprefix(k, UserPrefix)] == state[k]
    {
      Unprefixing(k, UserPrefix);
    }
    d
  }

  /** An empty state splits into three empty parts. */
  lemma ExtractNothing()
    ensures ExtractStateDelta(map[]) == Split(map[], map[], map[])
  {
  }

  lemma UpdateNothing(m: StateMap)
    ensures m + map[] == m
  {
  }

  /** Nothing else is in the parts: each entry of a part comes from one key of the state. */
  lemma ExtractedFrom(state: StateMap, j: string)
    ensures var d := ExtractStateDelta(state);
      && (j in d.app ==> AppPrefix + j in state && d.app[j] == state[AppPrefix + j])
      && (j in d.user ==> UserPrefix + j in state && !StartsWith(UserPrefix + j, AppPrefix)
                          && d.user[j] == state[UserPrefix + j])
      && (j in d.session ==> j in state && IsSessionKey(j) && d.session[j] == state[j])
  {
    PrefixesDisjoint(UserPrefix + j);
    Prefixing(UserPrefix, j);
  }

  /** Every key of `m` with the prefix `p` put in front. */
  function Prefixed(p: string, m: StateMap): (r: StateMap)
    ensures forall j | j in m :: p + j in r && r[p + j] == m[j]
  {
    var keys := set j | j in m :: p + j;
    var r := map k | k in keys && StartsWith(k, p) && Unprefix(k, p) in m :: m[Unprefix(k, p)];
    forall j | j in m ensures p + j in r && r[p + j] == m[j] {
      Prefixing(p, j);
    }
    r
  }

  lemma PrefixedFrom(p: string, m: StateMap, k: string)
    requires k in Prefixed(p, m)
    ensures StartsWith(k, p) && Unprefix(k, p) in m && Prefixed(p, m)[k] == m[Unprefix(k, p)]
  {
  }

  /** `_merge_state`: app entries re-prefixed, then user entries re-prefixed,
      then the session entries laid over both. */
  function MergeState(app: StateMap, user: StateMap, session: StateMap): (r: StateMap)
    ensures forall k | k in session :: k in r && r[k] == session[k]
    ensures forall j | j in user && UserPrefix + j !in session :: UserPrefix + j in r && r[UserPrefix + j] == user[j]
    ensures forall j | j in app && AppPrefix + j !in session :: AppPrefix + j in r && r[AppPrefix + j] == app[j]
  {
    var a := Prefixed(AppPrefix, app);
    var u := Prefixed(UserPrefix, user);
    forall j | j in app && AppPrefix + j !in session
      ensures AppPrefix + j in a + u + session && (a + u + session)[AppPrefix + j] == app[j]
    {
      if AppPrefix + j in u {
        PrefixedFrom(UserPrefix, user, AppPrefix + j);
        Prefixing(AppPrefix, j);
        PrefixesDisjoint(AppPrefix + j);
      }
    }
    a + u + session
  }

  /** Nothing else is in the merge: each key is a session key or a re-prefixed app or user key. */
  lemma MergedFrom(app: StateMap, user: StateMap, session: StateMap, k: string)
    requires k in MergeState(app, user, session)
    ensures || k in session
            || (StartsWith(k, UserPrefix) && Unprefix(k, UserPrefix) in user)
            || (StartsWith(k, AppPrefix) && Unprefix(k, AppPrefix) in app)
  {
    if k !in session {
      if k in Prefixed(UserPrefix, user) {
        PrefixedFrom(UserPrefix, user, k);
      } else {
        PrefixedFrom(AppPrefix, app, k);
      }
    }
  }

  /** Splitting a state and merging its parts gives the state back. */
  lemma MergeExtract(state: StateMap)
    ensures var d := ExtractStateDelta(state); MergeState(d.app, d.user, d.session) == state
  {
    var d := ExtractStateDelta(state);
    var m := MergeState(d.app, d.user, d.session);
    forall k | k in state ensures k in m && m[k] == state[k] {
      if StartsWith(k, AppPrefix) {
        Unprefixing(k, AppPrefix);
      } else if StartsWith(k, UserPrefix) {
        Unprefixing(k, UserPrefix);
      }
    }
    forall k | k in m ensures k in state {
      MergedFrom(d.app, d.user, d.session, k);
      if k in d.session {
        ExtractedFrom(state, k);
      } else if StartsWith(k, UserPrefix) && Unprefix(k, UserPrefix) in d.user {
        ExtractedFrom(state, Unprefix(k, UserPrefix));
        Unprefixing(k, UserPrefix);
      } else {
        ExtractedFrom(state, Unprefix(k, AppPrefix));
        Unprefixing(k, AppPrefix);
      }
    }
  }

  /** Merging parts whose session keys carry no reserved prefix, then splitting,
      gives the parts back: the scopes never collide. */
  lemma ExtractMerge(app: StateMap, user: StateMap, session: StateMap)
    requires forall k | k in session :: IsSessionKey(k)
    ensures ExtractStateDelta(MergeState(app, user, session)) == Split(app, user, session)
  {
    ExtractMergeApp(app, user, session);
    ExtractMergeUser(app, user, session);
    ExtractMergeSession(app, user, session);
  }

  lemma ExtractMergeApp(app: StateMap, user: StateMap, session: StateMap)
    requires forall k | k in session :: IsSessionKey(k)
    ensures ExtractStateDelta(MergeState(app, user, session)).app == app
  {
    var m := MergeState(app, user, session);
    var d := ExtractStateDelta(m);
    forall j | j in app ensures j in d.app && d.app[j] == app[j] {
      Prefixing(AppPrefix, j);
    }
    forall j | j in d.app ensures j in app {
      ExtractedFrom(m, j);
      Prefixing(AppPrefix, j);
      PrefixesDisjoint(AppPrefix + j);
      MergedFrom(app, user, session, AppPrefix + j);
    }
  }

  lemma ExtractMergeUser(app: StateMap, user: StateMap, session: StateMap)
    requires forall k | k in session :: IsSessionKey(k)
    ensures ExtractStateDelta(MergeState(app, user, session)).user == user
  {
    var m := MergeState(app, user, session);
    var d := ExtractStateDelta(m);
    forall j | j in user ensures j in d.user && d.user[j] == user[j] {
      Prefixing(UserPrefix, j);
      PrefixesDisjoint(UserPrefix + j);
    }
    forall j | j in d.user ensures j in user {
      ExtractedFrom(m, j);
      Prefixing(UserPrefix, j);
      MergedFrom(app, user, session, UserPrefix + j);
    }
  }

  lemma ExtractMergeSession(app: StateMap, user: StateMap, session: StateMap)
    requires forall k | k in session :: IsSessionKey(k)
    ensures ExtractStateDelta(MergeState(app, user, session)).session == session
  {
    var m := MergeState(app, user, session);
    var d := ExtractStateDelta(m);
    forall k | k in d.session ensures k in session {
      ExtractedFrom(m, k);
      MergedFrom(app, user, session, k);
    }
  }

  /** Laying the parts of `state` over existing app and user scopes and then
      merging shows every entry of `state` unchanged. */
  lemma MergeShowsState(app: StateMap, user: StateMap, state: StateMap)
    ensures var d := ExtractStateDelta(state);
      forall k | k in state :: k in MergeState(app + d.app, user + d.user, d.session)
                               && MergeState(app + d.app, user + d.user, d.session)[k] == state[k]
  {
    var d := ExtractStateDelta(state);
    var m := MergeState(app + d.app, user + d.user, d.session);
    forall k | k in state ensures k in m && m[k] == state[k] {
      if StartsWith(k, AppPrefix) {
        Unprefixing(k, AppPrefix);
      } else if StartsWith(k, UserPrefix) {
        Unprefixing(k, UserPrefix);
      }
    }
  }
}

=== FILE: seqs.dfy ===
/** Sequence operations the document store and the analytics layer are built
    from: counting and filtering, TinyDB's first-match lookup, Python's stable
    `sorted`, `defaultdict(list)` grouping and `Counter` with `most_common`. */
module Seqs {
  import opened Py

  // ---------------------------------------------------------------------------
  // Counting and filtering

  function Count<T>(s: seq<T>, p: T -> bool): (n: nat)
    ensures n <= |s|
  {
    if s == [] then 0 else Count(s[..|s| - 1], p) + (if p(s[|s| - 1]) then 1 else 0)
  }

  /** A list comprehension `[x for x in s if p(x)]`. */
  function Filter<T>(s: seq<T>, p: T -> bool): (r: seq<T>)
    ensures |r| == Count(s, p)
    ensures forall x | x in r :: p(x) && x in s
    ensures forall x | x in s && p(x) :: x in r
    ensures multiset(r) <= multiset(s)
  {
    if s == [] then []
    else
      assert s == s[..|s| - 1] + [s[|s| - 1]];
      Filter(s[..|s| - 1], p) + (if p(s[|s| - 1]) then [s[|s| - 1]] else [])
  }

  lemma {:induction false} CountAppend<T>(a: seq<T>, b: seq<T>, p: T -> bool)
    ensures Count(a + b, p) == Count(a, p) + Count(b, p)
    decreases |b|
  {
    if b == [] {
      assert a + b == a;
    } else {
      assert (a + b)[..|a + b| - 1] == a + b[..|b| - 1];
      CountAppend(a, b[..|b| - 1], p);
    }
  }

  lemma {:induction false} FilterAppend<T>(a: seq<T>, b: seq<T>, p: T -> bool)
    ensures Filter(a + b, p) == Filter(a, p) + Filter(b, p)
    decreases |b|
  {
    if b == [] {
      assert a + b == a;
    } else {
      assert (a + b)[..|a + b| - 1] == a + b[..|b| - 1];
      FilterAppend(a, b[..|b| - 1], p);
    }
  }

  /** A weaker test counts at least as many elements. */
  lemma {:induction false} CountMono<T>(s: seq<T>, p: T -> bool, q: T -> bool)
    requires forall x | x in s :: p(x) ==> q(x)
    ensures Count(s, p) <= Count(s, q)
    decreases |s|
  {
    if s != [] {
      var s0 := s[..|s| - 1];
      assert forall x | x in s0 :: x in s;
      CountMono(s0, p, q);
    }
  }

  /** Filtering by a weaker test keeps at least as many elements passing a third. */
  lemma {:induction false} CountFilterMono<T>(s: seq<T>, p: T -> bool, q: T -> bool, t: T -> bool)
    requires forall x | x in s :: p(x) ==> q(x)
    ensures Count(Filter(s, p), t) <= Count(Filter(s, q), t)
    decreases |s|
  {
    if s != [] {
      var s0, x := s[..|s| - 1], s[|s| - 1];
      assert forall y | y in s0 :: y in s;
      CountFilterMono(s0, p, q, t);
      assert [x][..0] == [];
      CountAppend(Filter(s0, p), if p(x) then [x] else [], t);
      CountAppend(Filter(s0, q), if q(x) then [x] else [], t);
    }
  }

  /** Filtering a prefix that is extended by one element. */
  lemma CountSnoc<T>(s: seq<T>, i: nat, p: T -> bool)
    requires i < |s|
    ensures Count(s[..i + 1], p) == Count(s[..i], p) + (if p(s[i]) then 1 else 0)
  {
    assert s[..i + 1][..i] == s[..i];
  }

  /** A sequence is its part before `i`, its element at `i` and its part after. */
  lemma SplitAt<T>(b: seq<T>, i: nat)
    requires i < |b|
    ensures b == (b[..i] + [b[i]]) + b[i + 1..]
  {
  }

  /** Two orderings of the same elements: the last element of one occurs in
      the other, and what remains of both is again the same elements. */
  lemma PermutationRest<T>(a: seq<T>, b: seq<T>) returns (i: nat)
    requires multiset(a) == multiset(b) && a != []
    ensures i < |b| && b[i] == a[|a| - 1]
    ensures multiset(a[..|a| - 1]) == multiset(b[..i] + b[i + 1..])
  {
    var x := a[|a| - 1];
    assert x in multiset(b);
    i :| 0 <= i < |b| && b[i] == x;
    var a0, b0 := a[..|a| - 1], b[..i] + b[i + 1..];
    assert a == a0 + [x];
    SplitAt(b, i);
    assert multiset(b) == multiset(b[..i]) + multiset{x} + multiset(b[i + 1..]);
    assert multiset(b0) == multiset(b[..i]) + multiset(b[i + 1..]);
    assert multiset(a0) == multiset(a) - multiset{x};
    assert multiset(b0) == multiset(b) - multiset{x};
  }

  lemma CountOne<T>(x: T, p: T -> bool)
    ensures Count([x], p) == if p(x) then 1 else 0
  {
    assert [x][..0] == [];
  }

  /** Removing one element from the middle. */
  lemma CountRemove<T>(b: seq<T>, i: nat, p: T -> bool)
    requires i < |b|
    ensures Count(b, p) == Count(b[..i] + b[i + 1..], p) + (if p(b[i]) then 1 else 0)
  {
    var l, r := b[..i], b[i + 1..];
    SplitAt(b, i);
    CountAppend(l + [b[i]], r, p);
    CountAppend(l, [b[i]], p);
    CountAppend(l, r, p);
    CountOne(b[i], p);
  }

  /** How many elements pass a test does not depend on their order. */
  lemma {:induction false} CountPermutation<T>(a: seq<T>, b: seq<T>, p: T -> bool)
    requires multiset(a) == multiset(b)
    ensures Count(a, p) == Count(b, p)
    decreases |a|
  {
    if a == [] {
      assert b == [] by { assert |multiset(b)| == 0; }
    } else {
      var i := PermutationRest(a, b);
      CountPermutation(a[..|a| - 1], b[..i] + b[i + 1..], p);
      CountRemove(b, i, p);
    }
  }

  /** Filtering by a stronger test after a weaker one is filtering by the stronger test. */
  lemma {:induction false} FilterFilter<T>(s: seq<T>, p: T -> bool, q: T -> bool)
    requires forall x | x in s :: q(x) ==> p(x)
    ensures Filter(Filter(s, p), q) == Filter(s, q)
    decreases |s|
  {
    if s != [] {
      var s0 := s[..|s| - 1];
      var x := s[|s| - 1];
      assert forall y | y in s0 :: y in s;
      FilterFilter(s0, p, q);
      FilterAppend(Filter(s0, p), if p(x) then [x] else [], q);
      assert [x][..0] == [];
    }
  }

  /** A filter that nothing passes leaves nothing, and one that everything passes changes nothing. */
  lemma FilterTrivial<T>(s: seq<T>, p: T -> bool)
    ensures (forall x | x in s :: !p(x)) ==> Filter(s, p) == []
    ensures (forall x | x in s :: p(x)) ==> Filter(s, p) == s
  {
    if s != [] {
      assert forall y | y in s[..|s| - 1] :: y in s;
      FilterTrivial(s[..|s| - 1], p);
      assert s == s[..|s| - 1] + [s[|s| - 1]];
    }
  }

  /** How often each value occurs in a filtered sequence. */
  lemma {:induction false} FilterMultiset<T>(s: seq<T>, p: T -> bool, x: T)
    ensures multiset(Filter(s, p))[x] == if p(x) then multiset(s)[x] else 0
    decreases |s|
  {
    if s != [] {
      var s0 := s[..|s| - 1];
      assert s == s0 + [s[|s| - 1]];
      FilterMultiset(s0, p, x);
    }
  }

  /** Filtering a permutation gives a permutation of the filtered sequence. */
  lemma FilterPermutation<T>(a: seq<T>, b: seq<T>, p: T -> bool)
    requires multiset(a) == multiset(b)
    ensures multiset(Filter(a, p)) == multiset(Filter(b, p))
  {
    forall x ensures multiset(Filter(a, p))[x] == multiset(Filter(b, p))[x] {
      FilterMultiset(a, p, x);
      FilterMultiset(b, p, x);
    }
  }

  /** Filtering a sorted sequence keeps it sorted. */
  lemma {:induction false} FilterSorted<T>(s: seq<T>, key: T -> int, p: T -> bool)
    requires SortedBy(s, key)
    ensures SortedBy(Filter(s, p), key)
    decreases |s|
  {
    if s != [] {
      var s0 := s[..|s| - 1];
      var x := s[|s| - 1];
      FilterSorted(s0, key, p);
      var f := Filter(s0, p);
      if p(x) {
        forall y | y in f ensures key(y) <= key(x) {
          var i :| 0 <= i < |s0| && s0[i] == y;
        }
        var r := f + [x];
        forall a, b | 0 <= a < b < |r| ensures key(r[a]) <= key(r[b]) {
          assert r[a] in f || a == |f|;
          if b == |f| {
            assert r[a] in f;
          }
        }
      }
    }
  }

  // ---------------------------------------------------------------------------
  // Sums

  function SumOf<T>(s: seq<T>, f: T -> nat): nat {
    if s == [] then 0 else SumOf(s[..|s| - 1], f) + f(s[|s| - 1])
  }

  lemma {:induction false} SumOfAppend<T>(a: seq<T>, b: seq<T>, f: T -> nat)
    ensures SumOf(a + b, f) == SumOf(a, f) + SumOf(b, f)
    decreases |b|
  {
    if b == [] {
      assert a + b == a;
    } else {
      assert (a + b)[..|a + b| - 1] == a + b[..|b| - 1];
      SumOfAppend(a, b[..|b| - 1], f);
    }
  }

  /** A sum does not depend on the order of its terms. */
  lemma {:induction false} SumOfPermutation<T>(a: seq<T>, b: seq<T>, f: T -> nat)
    requires multiset(a) == multiset(b)
    ensures SumOf(a, f) == SumOf(b, f)
    decreases |a|
  {
    if a == [] {
      assert b == [] by { assert |multiset(b)| == 0; }
    } else {
      var i := PermutationRest(a, b);
      SumOfPermutation(a[..|a| - 1], b[..i] + b[i + 1..], f);
      SumOfRemove(b, i, f);
    }
  }

  /** Removing one element from the middle. */
  lemma SumOfRemove<T>(b: seq<T>, i: nat, f: T -> nat)
    requires i < |b|
    ensures SumOf(b, f) == SumOf(b[..i] + b[i + 1..], f) + f(b[i])
  {
    var l, r := b[..i], b[i + 1..];
    SplitAt(b, i);
    SumOfAppend(l + [b[i]], r, f);
    SumOfAppend(l, [b[i]], f);
    SumOfAppend(l, r, f);
    assert [b[i]][..0] == [];
  }

  lemma SumOfPrefix<T>(s: seq<T>, n: nat, f: T -> nat)
    requires n <= |s|
    ensures SumOf(s[..n], f) <= SumOf(s, f)
  {
    assert s == s[..n] + s[n..];
    SumOfAppend(s[..n], s[n..], f);
  }

  /** `[f(x) for x in s]`. */
  function Map<T, U>(s: seq<T>, f: T -> U): (r: seq<U>)
    ensures |r| == |s|
    ensures forall i | 0 <= i < |s| :: r[i] == f(s[i])
  {
    seq(|s|, i requires 0 <= i < |s| => f(s[i]))
  }

  lemma MapAppend<T, U>(a: seq<T>, b: seq<T>, f: T -> U)
    ensures Map(a + b, f) == Map(a, f) + Map(b, f)
  {
  }

  /** Mapping two orderings of the same elements gives two orderings of the same images. */
  lemma {:induction false} MapPermutation<T, U>(a: seq<T>, b: seq<T>, f: T -> U)
    requires multiset(a) == multiset(b)
    ensures multiset(Map(a, f)) == multiset(Map(b, f))
    decreases |a|
  {
    if a == [] {
      assert |b| == |multiset(b)| == 0;
    } else {
      var i := PermutationRest(a, b);
      var a0 := a[..|a| - 1];
      assert a == a0 + [a[|a| - 1]];
      MapPermutation(a0, b[..i] + b[i + 1..], f);
      MapAppend(a0, [b[i]], f);
      MapRemove(b, i, f);
    }
  }

  /** Removing one element from the middle. */
  /** A rearrangement of `Map(s, f)` holds the images of `s` and nothing else. */
  lemma MapMembers<T, U>(r: seq<U>, s: seq<T>, f: T -> U)
    requires multiset(r) == multiset(Map(s, f))
    ensures forall x | x in s :: f(x) in r
    ensures forall t | t in r :: exists x | x in s :: f(x) == t
  {
    var m := Map(s, f);
    forall x | x in s ensures f(x) in r {
      var i :| 0 <= i < |s| && s[i] == x;
      assert m[i] == f(x);
      assert f(x) in multiset(m);
    }
    forall t | t in r ensures exists x | x in s :: f(x) == t {
      assert t in multiset(m);
      var i :| 0 <= i < |s| && m[i] == t;
      assert s[i] in s;
    }
  }

  lemma MapRemove<T, U>(b: seq<T>, i: nat, f: T -> U)
    requires i < |b|
    ensures multiset(Map(b, f)) == multiset(Map(b[..i] + b[i + 1..], f)) + multiset{f(b[i])}
  {
    var l, r := b[..i], b[i + 1..];
    SplitAt(b, i);
    MapAppend(l + [b[i]], r, f);
    MapAppend(l, [b[i]], f);
    MapAppend(l, r, f);
  }

  // ---------------------------------------------------------------------------
  // First match: TinyDB's `table.get(cond)`

  function FindIndex<T>(s: seq<T>, p: T -> bool): (r: Option<nat>)
    ensures r.Some? ==> r.value < |s| && p(s[r.value])
    ensures r.Some? ==> forall j | 0 <= j < r.value :: !p(s[j])
    ensures r.None? <==> forall j | 0 <= j < |s| :: !p(s[j])
  {
    if s == [] then None
    else if p(s[0]) then Some(0)
    else match FindIndex(s[1..], p)
      case None => None
      case Some(i) => Some(i + 1)
  }

  /** The first match depends only on which positions pass the test. */
  lemma FindIndexSame<T, U>(a: seq<T>, b: seq<U>, p: T -> bool, q: U -> bool)
    requires |a| == |b|
    requires forall i | 0 <= i < |a| :: p(a[i]) == q(b[i])
    ensures FindIndex(a, p) == FindIndex(b, q)
  {
  }

  /** The first element that passes the test. */
  function Find<T>(s: seq<T>, p: T -> bool): (r: Option<T>)
    ensures r.Some? ==> r.value in s && p(r.value)
    ensures r.Some? ==> exists i | 0 <= i < |s| :: s[i] == r.value && forall j | 0 <= j < i :: !p(s[j])
    ensures r.None? <==> forall x | x in s :: !p(x)
  {
    match FindIndex(s, p)
    case None => None
    case Some(i) => Some(s[i])
  }

  lemma {:induction false} FindAppend<T>(a: seq<T>, b: seq<T>, p: T -> bool)
    ensures Find(a + b, p) == if Find(a, p).Some? then Find(a, p) else Find(b, p)
    decreases |a|
  {
    if a != [] {
      assert (a + b)[1..] == a[1..] + b;
      FindAppend(a[1..], b, p);
    } else {
      assert a + b == b;
    }
  }

  /** Filtering by a weaker test does not change the first match of a stronger one. */
  lemma {:induction false} FindFilter<T>(s: seq<T>, p: T -> bool, q: T -> bool)
    requires forall x | x in s :: q(x) ==> p(x)
    ensures Find(Filter(s, p), q) == Find(s, q)
    decreases |s|
  {
    if s != [] {
      var s0 := s[..|s| - 1];
      var x := s[|s| - 1];
      assert s == s0 + [x];
      assert forall y | y in s0 :: y in s;
      FindFilter(s0, p, q);
      FindAppend(Filter(s0, p), if p(x) then [x] else [], q);
      FindAppend(s0, [x], q);
    }
  }

  // ---------------------------------------------------------------------------
  // Stable sorting: Python's `sorted(s, key=...)`

  predicate SortedBy<T>(s: seq<T>, key: T -> int) {
    forall a, b | 0 <= a < b < |s| :: key(s[a]) <= key(s[b])
  }

  /** Inserts `x` before the first element whose key is not smaller. */
  function Insert<T>(x: T, s: seq<T>, key: T -> int): (r: seq<T>)
    ensures |r| == |s| + 1
    ensures multiset(r) == multiset(s) + multiset{x}
  {
    if s == [] || key(x) <= key(s[0]) then [x] + s
    else
      assert s == [s[0]] + s[1..];
      [s[0]] + Insert(x, s[1..], key)
  }

  lemma SortedCons<T>(h: T, t: seq<T>, key: T -> int)
    requires SortedBy(t, key)
    requires forall i | 0 <= i < |t| :: key(h) <= key(t[i])
    ensures SortedBy([h] + t, key)
  {
    var r := [h] + t;
    forall a, b | 0 <= a < b < |r| ensures key(r[a]) <= key(r[b]) {
      assert r[b] == t[b - 1];
      if a > 0 {
        assert r[a] == t[a - 1];
      }
    }
  }

  lemma {:induction false} InsertSorted<T>(x: T, s: seq<T>, key: T -> int)
    requires SortedBy(s, key)
    ensures SortedBy(Insert(x, s, key), key)
    decreases |s|
  {
    if s == [] || key(x) <= key(s[0]) {
      SortedCons(x, s, key);
    } else {
      var t := Insert(x, s[1..], key);
      assert Insert(x, s, key) == [s[0]] + t;
      InsertSorted(x, s[1..], key);
      forall i | 0 <= i < |t| ensures key(s[0]) <= key(t[i]) {
        var y := t[i];
        assert y in multiset(t);
        if y != x {
          assert y in multiset(s[1..]);
          var b :| 0 <= b < |s[1..]| && s[1..][b] == y;
          assert s[b + 1] == y;
        }
      }
      SortedCons(s[0], t, key);
    }
  }

  /** Insertion sort; stable because an element goes before its equals. */
  function SortBy<T>(s: seq<T>, key: T -> int): (r: seq<T>)
    ensures |r| == |s|
    ensures multiset(r) == multiset(s)
    ensures SortedBy(r, key)
  {
    if s == [] then []
    else
      assert s == [s[0]] + s[1..];
      var t := SortBy(s[1..], key);
      InsertSorted(s[0], t, key);
      Insert(s[0], t, key)
  }

  /** The elements of `s` whose key is `k`, in their order in `s`. */
  function Matching<T, K(==)>(s: seq<T>, key: T -> K, k: K): seq<T> {
    if s == [] then []
    else Matching(s[..|s| - 1], key, k) + (if key(s[|s| - 1]) == k then [s[|s| - 1]] else [])
  }

  lemma MatchingMembers<T, K>(s: seq<T>, key: T -> K, k: K)
    ensures forall x | x in Matching(s, key, k) :: x in s && key(x) == k
  {
    if s != [] {
      MatchingMembers(s[..|s| - 1], key, k);
      assert forall x | x in s[..|s| - 1] :: x in s;
    }
  }

  lemma MatchingNone<T, K>(s: seq<T>, key: T -> K, k: K)
    requires forall x | x in s :: key(x) != k
    ensures Matching(s, key, k) == []
  {
    if s != [] {
      assert forall x | x in s[..|s| - 1] :: x in s;
      MatchingNone(s[..|s| - 1], key, k);
    }
  }

  lemma {:induction false} MatchingCons<T, K>(x: T, s: seq<T>, key: T -> K, k: K)
    ensures Matching([x] + s, key, k) == (if key(x) == k then [x] else []) + Matching(s, key, k)
    decreases |s|
  {
    if s == [] {
      assert ([x] + s)[..0] == [];
    } else {
      assert ([x] + s)[..|[x] + s| - 1] == [x] + s[..|s| - 1];
      MatchingCons(x, s[..|s| - 1], key, k);
    }
  }

  lemma {:induction false} InsertStable<T>(x: T, s: seq<T>, key: T -> int, k: int)
    ensures Matching(Insert(x, s, key), key, k) == (if key(x) == k then [x] else []) + Matching(s, key, k)
    decreases |s|
  {
    var X := if key(x) == k then [x] else [];
    if s == [] || key(x) <= key(s[0]) {
      assert Insert(x, s, key) == [x] + s;
      MatchingCons(x, s, key, k);
    } else {
      var h := s[0];
      var t := Insert(x, s[1..], key);
      var H := if key(h) == k then [h] else [];
      assert Insert(x, s, key) == [h] + t;
      calc {
        Matching([h] + t, key, k);
        == { MatchingCons(h, t, key, k); }
        H + Matching(t, key, k);
        == { InsertStable(x, s[1..], key, k); }
        H + (X + Matching(s[1..], key, k));
      }
      calc {
        Matching(s, key, k);
        == { assert s == [h] + s[1..]; }
        Matching([h] + s[1..], key, k);
        == { MatchingCons(h, s[1..], key, k); }
        H + Matching(s[1..], key, k);
      }
      if key(x) == k {
        assert H == [];
      } else {
        assert X == [];
      }
    }
  }

  /** Stability: the elements sharing a key keep their relative order. */
  lemma {:induction false} SortStable<T>(s: seq<T>, key: T -> int, k: int)
    ensures Matching(SortBy(s, key), key, k) == Matching(s, key, k)
    decreases |s|
  {
    if s != [] {
      SortStable(s[1..], key, k);
      InsertStable(s[0], SortBy(s[1..], key), key, k);
      MatchingCons(s[0], s[1..], key, k);
      assert s == [s[0]] + s[1..];
    }
  }

  lemma {:induction false} MatchingAppend<T, K>(a: seq<T>, b: seq<T>, key: T -> K, k: K)
    ensures Matching(a + b, key, k) == Matching(a, key, k) + Matching(b, key, k)
    decreases |b|
  {
    if b == [] {
      assert a + b == a;
    } else {
      assert (a + b)[..|a + b| - 1] == a + b[..|b| - 1];
      MatchingAppend(a, b[..|b| - 1], key, k);
    }
  }

  lemma {:induction false} MatchingReverse<T, K>(s: seq<T>, key: T -> K, k: K)
    ensures Matching(Reverse(s), key, k) == Reverse(Matching(s, key, k))
    decreases |s|
  {
    if s != [] {
      var x := s[|s| - 1];
      var s0 := s[..|s| - 1];
      assert Reverse(s) == [x] + Reverse(s0);
      MatchingCons(x, Reverse(s0), key, k);
      MatchingReverse(s0, key, k);
      var m := Matching(s0, key, k);
      var X := if key(x) == k then [x] else [];
      assert Matching(s, key, k) == m + X;
      assert Reverse(m + X) == X + Reverse(m) by {
        assert |Reverse(m + X)| == |X + Reverse(m)|;
      }
    }
  }

  /** The elements whose negated key is `-k` are those whose key is `k`. */
  lemma {:induction false} MatchingNegated<T>(s: seq<T>, key: T -> int, neg: T -> int, k: int)
    requires forall x :: neg(x) == -key(x)
    ensures Matching(s, neg, -k) == Matching(s, key, k)
    decreases |s|
  {
    if s != [] {
      MatchingNegated(s[..|s| - 1], key, neg, k);
    }
  }

  /** Sorting by a negated key keeps the elements of each key in their order. */
  lemma SortNegatedStable<T>(s: seq<T>, key: T -> int, neg: T -> int, k: int)
    requires forall x :: neg(x) == -key(x)
    ensures Matching(SortBy(s, neg), key, k) == Matching(s, key, k)
  {
    MatchingNegated(SortBy(s, neg), key, neg, k);
    SortStable(s, neg, -k);
    MatchingNegated(s, key, neg, k);
  }

  /** Reversing a sequence sorted by a negated key sorts it by the key. */
  lemma ReverseSorted<T>(s: seq<T>, key: T -> int, neg: T -> int)
    requires forall x :: neg(x) == -key(x)
    requires SortedBy(s, neg)
    ensures SortedBy(Reverse(s), key)
  {
    var r := Reverse(s);
    forall a, b | 0 <= a < b < |r| ensures key(r[a]) <= key(r[b]) {
      assert neg(s[|s| - 1 - b]) <= neg(s[|s| - 1 - a]);
    }
  }

  // ---------------------------------------------------------------------------
  // Grouping: `defaultdict(list)` filled in order, and `Counter`

  datatype Bucket<K, T> = Bucket(key: K, items: seq<T>)

  predicate DistinctKeys<K(==), T>(bs: seq<Bucket<K, T>>) {
    forall a, b | 0 <= a < b < |bs| :: bs[a].key != bs[b].key
  }

  /** The test "this bucket is filed under `k`", as one value for every caller. */
  function HasKey<K(==), T>(k: K): Bucket<K, T> -> bool {
    (b: Bucket<K, T>) => b.key == k
  }

  function SumSizes<K, T>(bs: seq<Bucket<K, T>>): nat {
    if bs == [] then 0 else SumSizes(bs[..|bs| - 1]) + |bs[|bs| - 1].items|
  }

  lemma {:induction false} SumSizesUpdate<K, T>(bs: seq<Bucket<K, T>>, i: nat, b: Bucket<K, T>)
    requires i < |bs|
    ensures SumSizes(bs[i := b]) + |bs[i].items| == SumSizes(bs) + |b.items|
    decreases |bs|
  {
    var n := |bs| - 1;
    if i < n {
      assert bs[i := b][..n] == bs[..n][i := b];
      SumSizesUpdate(bs[..n], i, b);
    } else {
      assert bs[i := b][..n] == bs[..n];
    }
  }

  /** `groups[k].append(x)`: an existing bucket grows, a new key opens a bucket at the end. */
  function AddTo<K(==), T>(bs: seq<Bucket<K, T>>, k: K, x: T): seq<Bucket<K, T>> {
    match FindIndex(bs, HasKey(k))
    case Some(i) => bs[i := Bucket(k, bs[i].items + [x])]
    case None => bs + [Bucket(k, [x])]
  }

  /** Groups `s` by `key`; buckets appear in the order their key is first met. */
  function GroupBy<T, K(==)>(s: seq<T>, key: T -> K): (r: seq<Bucket<K, T>>)
    ensures GroupedAs(s, key, r)
  {
    if s == [] then []
    else
      var s0 := s[..|s| - 1];
      var x := s[|s| - 1];
      var r0 := GroupBy(s0, key);
      GroupByStep(s, key, r0);
      assert FindIndex(r0, HasKey(key(x))).None? ==> forall j | 0 <= j < |r0| :: !HasKey(key(x))(r0[j]);
      AddTo(r0, key(x), x)
  }

  /** The facts `GroupBy` keeps about the buckets of a prefix. */
  ghost predicate GroupedAs<T, K>(s: seq<T>, key: T -> K, r: seq<Bucket<K, T>>) {
    && DistinctKeys(r)
    && ItemsGrouped(s, key, r)
    && Covered(s, key, r)
    && SumSizes(r) == |s|
  }

  /** Each bucket holds, in order, exactly the elements with its key. */
  ghost predicate ItemsGrouped<T, K>(s: seq<T>, key: T -> K, r: seq<Bucket<K, T>>) {
    forall i | 0 <= i < |r| :: r[i].items == Matching(s, key, r[i].key) && r[i].items != []
  }

  /** Every element's key has a bucket. */
  ghost predicate Covered<T, K>(s: seq<T>, key: T -> K, r: seq<Bucket<K, T>>) {
    forall x | x in s :: exists i :: 0 <= i < |r| && r[i].key == key(x)
  }

  lemma GroupByStep<T, K>(s: seq<T>, key: T -> K, r0: seq<Bucket<K, T>>)
    requires s != []
    requires GroupedAs(s[..|s| - 1], key, r0)
    ensures GroupedAs(s, key, AddTo(r0, key(s[|s| - 1]), s[|s| - 1]))
  {
    var k := key(s[|s| - 1]);
    match FindIndex(r0, HasKey(k))
    case Some(i) => GroupIntoExisting(s, key, r0, i);
    case None => GroupIntoNew(s, key, r0);
  }

  lemma GroupIntoExisting<T, K>(s: seq<T>, key: T -> K, r0: seq<Bucket<K, T>>, i: nat)
    requires s != []
    requires GroupedAs(s[..|s| - 1], key, r0)
    requires i < |r0| && r0[i].key == key(s[|s| - 1])
    ensures GroupedAs(s, key, r0[i := Bucket(r0[i].key, r0[i].items + [s[|s| - 1]])])
  {
    var s0 := s[..|s| - 1];
    var x := s[|s| - 1];
    var k := key(x);
    var r := r0[i := Bucket(k, r0[i].items + [x])];
    assert s == s0 + [x];
    SumSizesUpdate(r0, i, Bucket(k, r0[i].items + [x]));
    forall j | 0 <= j < |r| ensures r[j].items == Matching(s, key, r[j].key) && r[j].items != [] {
      if j != i {
        assert r0[j].key != k;
      }
    }
    forall y | y in s ensures exists j :: 0 <= j < |r| && r[j].key == key(y) {
      if y in s0 {
        var j :| 0 <= j < |r0| && r0[j].key == key(y);
        assert r[j].key == key(y);
      } else {
        assert r[i].key == key(y);
      }
    }
  }

  lemma GroupIntoNew<T, K>(s: seq<T>, key: T -> K, r0: seq<Bucket<K, T>>)
    requires s != []
    requires GroupedAs(s[..|s| - 1], key, r0)
    requires forall j | 0 <= j < |r0| :: r0[j].key != key(s[|s| - 1])
    ensures GroupedAs(s, key, r0 + [Bucket(key(s[|s| - 1]), [s[|s| - 1]])])
  {
    var r := r0 + [Bucket(key(s[|s| - 1]), [s[|s| - 1]])];
    NewBucketItems(s, key, r0);
    NewBucketCovered(s, key, r0);
    assert r[..|r| - 1] == r0;
  }

  lemma NewBucketItems<T, K>(s: seq<T>, key: T -> K, r0: seq<Bucket<K, T>>)
    requires s != []
    requires ItemsGrouped(s[..|s| - 1], key, r0) && Covered(s[..|s| - 1], key, r0)
    requires forall j | 0 <= j < |r0| :: r0[j].key != key(s[|s| - 1])
    ensures ItemsGrouped(s, key, r0 + [Bucket(key(s[|s| - 1]), [s[|s| - 1]])])
  {
    var s0 := s[..|s| - 1];
    var x := s[|s| - 1];
    var k := key(x);
    var r := r0 + [Bucket(k, [x])];
    forall y | y in s0 ensures key(y) != k {
      var j :| 0 <= j < |r0| && r0[j].key == key(y);
    }
    MatchingNone(s0, key, k);
    forall j | 0 <= j < |r| ensures r[j].items == Matching(s, key, r[j].key) && r[j].items != [] {
      if j < |r0| {
        assert r[j] == r0[j];
      }
    }
  }

  lemma NewBucketCovered<T, K>(s: seq<T>, key: T -> K, r0: seq<Bucket<K, T>>)
    requires s != []
    requires Covered(s[..|s| - 1], key, r0)
    ensures Covered(s, key, r0 + [Bucket(key(s[|s| - 1]), [s[|s| - 1]])])
  {
    var s0 := s[..|s| - 1];
    var r := r0 + [Bucket(key(s[|s| - 1]), [s[|s| - 1]])];
    assert s == s0 + [s[|s| - 1]];
    forall y | y in s ensures exists j :: 0 <= j < |r| && r[j].key == key(y) {
      if y in s0 {
        var j :| 0 <= j < |r0| && r0[j].key == key(y);
        assert r[j].key == key(y);
      } else {
        assert r[|r0|].key == key(y);
      }
    }
  }

  /** `Counter`: each distinct key with its number of occurrences, in first-met order. */
  function Tally<T, K(==)>(s: seq<T>, key: T -> K): (r: seq<(K, nat)>)
    ensures Tallies(s, key, r)
  {
    var bs := GroupBy(s, key);
    SumCountsOfBuckets(bs);
    Map(bs, BucketCount)
  }

  /** `c` is a counter of `s` by `key`: one entry per key met, each holding
      how many elements carry that key, the counts adding up to `|s|`. */
  ghost predicate Tallies<T, K>(s: seq<T>, key: T -> K, c: seq<(K, nat)>) {
    && (forall a, b | 0 <= a < b < |c| :: c[a].0 != c[b].0)
    && (forall i | 0 <= i < |c| :: c[i].1 == |Matching(s, key, c[i].0)| && c[i].1 > 0)
    && (forall x | x in s :: exists i :: 0 <= i < |c| && c[i].0 == key(x))
    && SumCounts(c) == |s|
  }

  /** `r` lists at most `n` keys of `s` with their counts, most frequent first,
      and every key left out is at most as frequent as every key listed, with
      the list full. */
  ghost predicate Ranks<T, K>(s: seq<T>, key: T -> K, n: int, r: seq<(K, nat)>) {
    && |r| <= n
    && (forall a, b | 0 <= a < b < |r| :: r[a].0 != r[b].0)
    && (forall e | e in r :: e.1 == |Matching(s, key, e.0)| && e.1 > 0)
    && (forall a, b | 0 <= a < b < |r| :: r[a].1 >= r[b].1)
    && (forall x | x in s ::
          || (exists e | e in r :: e.0 == key(x))
          || (|r| == n && forall f | f in r :: |Matching(s, key, key(x))| <= f.1))
  }

  /** Distinct keys mean no element occurs twice. */
  lemma {:induction false} DistinctOnce<T, K>(s: seq<T>, key: T -> K)
    requires forall i, j | 0 <= i < j < |s| :: key(s[i]) != key(s[j])
    ensures forall x :: multiset(s)[x] <= 1
    decreases |s|
  {
    if s != [] {
      var s0, y := s[..|s| - 1], s[|s| - 1];
      assert s == s0 + [y];
      DistinctOnce(s0, key);
      assert y !in s0;
    }
  }

  /** Two equal positions make an element occur twice. */
  lemma Twice<T>(s: seq<T>, i: nat, j: nat)
    requires i < j < |s|
    ensures s[i] == s[j] ==> multiset(s)[s[i]] >= 2
  {
    assert s == s[..j] + s[j..];
    assert s[i] in s[..j];
    assert s[j] == s[j..][0];
  }

  /** Reordering keeps the keys distinct. */
  lemma DistinctKeysPermutation<T, K>(a: seq<T>, b: seq<T>, key: T -> K)
    requires multiset(a) == multiset(b)
    requires forall i, j | 0 <= i < j < |a| :: key(a[i]) != key(a[j])
    ensures forall i, j | 0 <= i < j < |b| :: key(b[i]) != key(b[j])
  {
    DistinctOnce(a, key);
    forall i, j | 0 <= i < j < |b| ensures key(b[i]) != key(b[j]) {
      Twice(b, i, j);
      assert b[i] != b[j];
      assert b[i] in multiset(a) && b[j] in multiset(a);
      var p :| 0 <= p < |a| && a[p] == b[i];
      var q :| 0 <= q < |a| && a[q] == b[j];
      assert p != q;
    }
  }

  /** Sorting and cutting keeps the keys distinct. */
  lemma SortedCutDistinct<T, K>(s: seq<T>, sortKey: T -> int, key: T -> K, n: int)
    requires forall i, j | 0 <= i < j < |s| :: key(s[i]) != key(s[j])
    ensures forall i, j | 0 <= i < j < |Take(SortBy(s, sortKey), n)| ::
      key(Take(SortBy(s, sortKey), n)[i]) != key(Take(SortBy(s, sortKey), n)[j])
  {
    var sorted := SortBy(s, sortKey);
    DistinctKeysPermutation(s, sorted, key);
    var r := Take(sorted, n);
    assert forall i | 0 <= i < |r| :: r[i] == sorted[i];
  }

  /** Sorting and cutting never adds to a sum. */
  lemma SortedCutSum<T>(s: seq<T>, sortKey: T -> int, n: int, f: T -> nat)
    ensures SumOf(Take(SortBy(s, sortKey), n), f) <= SumOf(s, f)
  {
    var sorted := SortBy(s, sortKey);
    SumOfPermutation(s, sorted, f);
    SumOfPrefix(sorted, |Take(sorted, n)|, f);
  }

  /** The key of a counter entry. */
  function KeyOf<K>(e: (K, nat)): K { e.0 }

  /** The most common entries of a counter name distinct keys. */
  lemma TopDistinct<K>(c: seq<(K, nat)>, n: int)
    requires forall a, b | 0 <= a < b < |c| :: c[a].0 != c[b].0
    ensures var r := MostCommon(c, n); forall a, b | 0 <= a < b < |r| :: r[a].0 != r[b].0
  {
    assert forall i, j | 0 <= i < j < |c| :: KeyOf(c[i]) != KeyOf(c[j]);
    SortedCutDistinct(c, NegCount, KeyOf, n);
  }

  /** `Counter(...).most_common(n)` ranks the keys. */
  lemma TopCounts<T, K>(s: seq<T>, key: T -> K, n: int)
    requires 0 <= n
    ensures Ranks(s, key, n, MostCommon(Tally(s, key), n))
  {
    var c := Tally(s, key);
    TopDistinct(c, n);
    TopEntries(s, key, c, n);
    TopCover(s, key, c, n);
  }

  lemma TopEntries<T, K>(s: seq<T>, key: T -> K, c: seq<(K, nat)>, n: int)
    requires Tallies(s, key, c)
    ensures forall e | e in MostCommon(c, n) :: e.1 == |Matching(s, key, e.0)| && e.1 > 0
  {
    forall e | e in MostCommon(c, n) ensures e.1 == |Matching(s, key, e.0)| && e.1 > 0 {
      var i :| 0 <= i < |c| && c[i] == e;
    }
  }

  lemma TopCover<T, K>(s: seq<T>, key: T -> K, c: seq<(K, nat)>, n: int)
    requires 0 <= n && Tallies(s, key, c)
    ensures var r := MostCommon(c, n);
      forall x | x in s ::
        || (exists e | e in r :: e.0 == key(x))
        || (|r| == n && forall f | f in r :: |Matching(s, key, key(x))| <= f.1)
  {
    var r := MostCommon(c, n);
    forall x | x in s
      ensures || (exists e | e in r :: e.0 == key(x))
              || (|r| == n && forall f | f in r :: |Matching(s, key, key(x))| <= f.1)
    {
      var i :| 0 <= i < |c| && c[i].0 == key(x);
      if |c| <= n {
        assert c[i] in multiset(c);
        assert c[i] in r;
      }
    }
  }

  function BucketCount<K, T>(b: Bucket<K, T>): (K, nat) {
    (b.key, |b.items|)
  }

  function SumCounts<K>(c: seq<(K, nat)>): nat {
    if c == [] then 0 else SumCounts(c[..|c| - 1]) + c[|c| - 1].1
  }

  lemma {:induction false} SumCountsOfBuckets<K, T>(bs: seq<Bucket<K, T>>)
    ensures SumCounts(Map(bs, BucketCount)) == SumSizes(bs)
    decreases |bs|
  {
    if bs != [] {
      var n := |bs| - 1;
      SumCountsOfBuckets(bs[..n]);
      assert Map(bs, BucketCount)[..n] == Map(bs[..n], BucketCount);
    }
  }

  function NegCount<K>(e: (K, nat)): int { -(e.1 as int) }

  /** `Counter.most_common(n)`: a stable sort by count, largest first, cut to `n`
      entries; `heapq.nlargest` gives nothing for `n <= 0`. */
  function MostCommon<K(==)>(c: seq<(K, nat)>, n: int): (r: seq<(K, nat)>)
    ensures 0 <= n ==> |r| == Min(n, |c|)
    ensures n <= 0 ==> r == []
    ensures |c| <= n ==> multiset(r) == multiset(c)
    ensures forall e | e in r :: e in c
    ensures forall a, b | 0 <= a < b < |r| :: r[a].1 >= r[b].1
    ensures forall e, f | e in c && f in r && e !in r :: e.1 <= f.1
  {
    var sorted := SortBy(c, NegCount);
    var r := if n <= 0 then [] else Take(sorted, n);
    MostCommonProps(c, sorted, r);
    TakeAll(sorted, n);
    r
  }

  /** A prefix holds no element more often than the whole sequence. */
  lemma PrefixMultiset<T>(s: seq<T>, n: nat)
    requires n <= |s|
    ensures multiset(s[..n]) <= multiset(s)
  {
    assert s == s[..n] + s[n..];
  }

  /** In a sorted sequence, an element beyond the first `n` has a key no smaller
      than any element among them. */
  lemma CutOffNoLater<T>(s: seq<T>, key: T -> int, n: nat, x: T, y: T)
    requires SortedBy(s, key) && n <= |s|
    requires x in multiset(s) && x !in multiset(s[..n]) && y in multiset(s[..n])
    ensures key(y) <= key(x)
  {
    var rest := s[n..];
    assert s == s[..n] + rest;
    assert x in multiset(rest);
    var i :| 0 <= i < |rest| && rest[i] == x;
    var j :| 0 <= j < n && s[..n][j] == y;
    assert s[j] == y && s[n + i] == x;
  }

  /** A prefix of a sorted sequence is sorted, and everything left out of it
      has a key at least that of everything kept. */
  lemma SortedPrefix<T>(sorted: seq<T>, key: T -> int, r: seq<T>)
    requires SortedBy(sorted, key)
    requires |r| <= |sorted| && r == sorted[..|r|]
    ensures SortedBy(r, key)
    ensures forall x, y | x in sorted && x !in r && y in r :: key(y) <= key(x)
  {
    forall x, y | x in sorted && x !in r && y in r ensures key(y) <= key(x) {
      var b :| 0 <= b < |sorted| && sorted[b] == x;
      var a :| 0 <= a < |r| && r[a] == y;
      assert forall j | 0 <= j < |r| :: sorted[j] == r[j];
      assert b >= |r|;
    }
  }

  lemma TakeAll<T>(s: seq<T>, n: int)
    ensures |s| <= n ==> Take(s, n) == s
  {
  }

  lemma MostCommonProps<K>(c: seq<(K, nat)>, sorted: seq<(K, nat)>, r: seq<(K, nat)>)
    requires multiset(sorted) == multiset(c)
    requires SortedBy(sorted, NegCount)
    requires |r| <= |sorted| && r == sorted[..|r|]
    ensures forall e | e in r :: e in c
    ensures forall a, b | 0 <= a < b < |r| :: r[a].1 >= r[b].1
    ensures forall e, f | e in c && f in r && e !in r :: e.1 <= f.1
  {
    forall e | e in r ensures e in c {
      assert e in sorted;
      assert e in multiset(c);
    }
    forall a, b | 0 <= a < b < |r| ensures r[a].1 >= r[b].1 {
      assert NegCount(sorted[a]) <= NegCount(sorted[b]);
    }
    forall e, f | e in c && f in r && e !in r ensures e.1 <= f.1 {
      assert e in multiset(sorted);
      var b :| 0 <= b < |sorted| && sorted[b] == e;
      var a :| 0 <= a < |r| && r[a] == f;
      assert forall j | 0 <= j < |r| :: sorted[j] == r[j];
      assert b >= |r|;
      assert NegCount(sorted[a]) <= NegCount(sorted[b]);
    }
  }

  /** Python's `max` of a non-empty list. */
  function MaxOf(s: seq<int>): (m: int)
    requires s != []
    ensures m in s
    ensures forall x | x in s :: x <= m
  {
    if |s| == 1 then s[0]
    else
      var m := MaxOf(s[..|s| - 1]);
      assert s == s[..|s| - 1] + [s[|s| - 1]];
      Max(m, s[|s| - 1])
  }
}

=== FILE: session_store.dfy ===
/** The TinyDB session service: five tables threaded through create, get,
    list, delete and append. A table `get` is the first matching document,
    `update` rewrites every matching document and `remove` keeps the others. */
module SessionStore {
  import opened Py
  import opened Seqs
  import opened Scopes
  import opened Records
  import opened Derive

  // ---------------------------------------------------------------------------
  // App and user scope documents

  /** `_get_app_state`: the state of the first document of the app, else empty. */
  function AppState(docs: seq<AppStateDoc>, appName: string): StateMap {
    match Find(docs, AppDocOf(appName))
    case Some(d) => d.state
    case None => map[]
  }

  /** `_get_user_state`: the state of the first document of the user, else empty. */
  function UserState(docs: seq<UserStateDoc>, appName: string, userId: string): StateMap {
    match Find(docs, UserDocOf(appName, userId))
    case Some(d) => d.state
    case None => map[]
  }

  function SetAppState(d: AppStateDoc, appName: string, s: StateMap): AppStateDoc {
    if d.appName == appName then d.(state := s) else d
  }

  function SetUserState(d: UserStateDoc, appName: string, userId: string, s: StateMap): UserStateDoc {
    if d.appName == appName && d.userId == userId then d.(state := s) else d
  }

  /** `_update_app_state`: when the app has a document, the first one's state
      with `delta` laid over it is written to every document of the app;
      otherwise nothing happens. */
  function UpdateAppState(docs: seq<AppStateDoc>, appName: string, delta: StateMap): (r: seq<AppStateDoc>)
    ensures |r| == |docs|
    ensures forall i | 0 <= i < |docs| :: r[i].appName == docs[i].appName && r[i].createdAt == docs[i].createdAt
    ensures forall i | 0 <= i < |docs| && docs[i].appName != appName :: r[i] == docs[i]
    ensures forall i | 0 <= i < |docs| && docs[i].appName == appName :: r[i].state == AppState(docs, appName) + delta
    ensures (forall d | d in docs :: d.appName != appName) ==> r == docs
    ensures (exists d | d in docs :: d.appName == appName) ==> AppState(r, appName) == AppState(docs, appName) + delta
  {
    match Find(docs, AppDocOf(appName))
    case None =>
      docs
    case Some(d) =>
      var r := Map(docs, (x: AppStateDoc) => SetAppState(x, appName, d.state + delta));
      AppStateAfterSet(docs, appName, d.state + delta);
      r
  }

  lemma AppStateAfterSet(docs: seq<AppStateDoc>, appName: string, s: StateMap)
    requires exists d | d in docs :: d.appName == appName
    ensures AppState(Map(docs, (x: AppStateDoc) => SetAppState(x, appName, s)), appName) == s
  {
    var r := Map(docs, (x: AppStateDoc) => SetAppState(x, appName, s));
    var i := FindIndex(docs, AppDocOf(appName)).value;
    assert FindIndex(r, AppDocOf(appName)) == Some(i) by {
      FindIndexSame(docs, r, AppDocOf(appName), AppDocOf(appName));
    }
  }

  /** `_update_user_state`, the same for the documents of one user of one app. */
  function UpdateUserState(docs: seq<UserStateDoc>, appName: string, userId: string, delta: StateMap): (r: seq<UserStateDoc>)
    ensures |r| == |docs|
    ensures forall i | 0 <= i < |docs| ::
      r[i].appName == docs[i].appName && r[i].userId == docs[i].userId && r[i].createdAt == docs[i].createdAt
    ensures forall i | 0 <= i < |docs| && !UserDocOf(appName, userId)(docs[i]) :: r[i] == docs[i]
    ensures forall i | 0 <= i < |docs| && UserDocOf(appName, userId)(docs[i]) ::
      r[i].state == UserState(docs, appName, userId) + delta
    ensures (forall d | d in docs :: !UserDocOf(appName, userId)(d)) ==> r == docs
    ensures (exists d | d in docs :: UserDocOf(appName, userId)(d)) ==>
      UserState(r, appName, userId) == UserState(docs, appName, userId) + delta
  {
    match Find(docs, UserDocOf(appName, userId))
    case None =>
      docs
    case Some(d) =>
      var r := Map(docs, (x: UserStateDoc) => SetUserState(x, appName, userId, d.state + delta));
      UserStateAfterSet(docs, appName, userId, d.state + delta);
      r
  }

  lemma UserStateAfterSet(docs: seq<UserStateDoc>, appName: string, userId: string, s: StateMap)
    requires exists d | d in docs :: UserDocOf(appName, userId)(d)
    ensures UserState(Map(docs, (x: UserStateDoc) => SetUserState(x, appName, userId, s)), appName, userId) == s
  {
    var r := Map(docs, (x: UserStateDoc) => SetUserState(x, appName, userId, s));
    var i := FindIndex(docs, UserDocOf(appName, userId)).value;
    assert FindIndex(r, UserDocOf(appName, userId)) == Some(i) by {
      FindIndexSame(docs, r, UserDocOf(appName, userId), UserDocOf(appName, userId));
    }
  }

  /** The first document of the app takes the delta; an app without one gets a new document. */
  function UpsertAppState(docs: seq<AppStateDoc>, appName: string, delta: StateMap, now: int): (r: seq<AppStateDoc>)
    ensures AppState(r, appName) == AppState(docs, appName) + delta
    ensures exists d | d in r :: d.appName == appName
    ensures |docs| <= |r| && forall i | 0 <= i < |docs| && docs[i].appName != appName :: r[i] == docs[i]
    ensures forall i | 0 <= i < |r| && r[i].appName == appName :: r[i].state == AppState(docs, appName) + delta
    ensures (exists d | d in docs :: d.appName == appName) ==> |r| == |docs|
    ensures (forall d | d in docs :: d.appName != appName) ==> r == docs + [AppStateDoc(appName, delta, now)]
  {
    if exists d | d in docs :: d.appName == appName then
      var r := UpdateAppState(docs, appName, delta);
      var i := FindIndex(docs, AppDocOf(appName)).value;
      assert r[i] in r && r[i].appName == appName;
      r
    else
      AppDocAppended(docs, AppStateDoc(appName, delta, now));
      docs + [AppStateDoc(appName, delta, now)]
  }

  /** An app without a document gets the appended one's state as its scope. */
  lemma AppDocAppended(docs: seq<AppStateDoc>, d: AppStateDoc)
    requires forall x | x in docs :: x.appName != d.appName
    ensures AppState(docs, d.appName) == map[]
    ensures AppState(docs + [d], d.appName) == d.state
    ensures d in docs + [d]
    ensures forall i | 0 <= i < |docs| + 1 && (docs + [d])[i].appName == d.appName :: i == |docs|
  {
    FindAppend(docs, [d], AppDocOf(d.appName));
  }

  /** The same for the user scope. */
  function UpsertUserState(docs: seq<UserStateDoc>, appName: string, userId: string, delta: StateMap, now: int)
    : (r: seq<UserStateDoc>)
    ensures UserState(r, appName, userId) == UserState(docs, appName, userId) + delta
    ensures exists d | d in r :: UserDocOf(appName, userId)(d)
    ensures |docs| <= |r| && forall i | 0 <= i < |docs| && !UserDocOf(appName, userId)(docs[i]) :: r[i] == docs[i]
    ensures forall i | 0 <= i < |r| && UserDocOf(appName, userId)(r[i]) :: r[i].state == UserState(docs, appName, userId) + delta
    ensures (exists d | d in docs :: UserDocOf(appName, userId)(d)) ==> |r| == |docs|
    ensures (forall d | d in docs :: !UserDocOf(appName, userId)(d)) ==>
      r == docs + [UserStateDoc(appName, userId, delta, now)]
  {
    if exists d | d in docs :: UserDocOf(appName, userId)(d) then
      var r := UpdateUserState(docs, appName, userId, delta);
      var i := FindIndex(docs, UserDocOf(appName, userId)).value;
      assert r[i] in r && UserDocOf(appName, userId)(r[i]);
      r
    else
      UserDocAppended(docs, UserStateDoc(appName, userId, delta, now));
      docs + [UserStateDoc(appName, userId, delta, now)]
  }

  /** A pair without a document gets the appended one's state as its scope. */
  lemma UserDocAppended(docs: seq<UserStateDoc>, d: UserStateDoc)
    requires forall x | x in docs :: !UserDocOf(d.appName, d.userId)(x)
    ensures UserState(docs, d.appName, d.userId) == map[]
    ensures UserState(docs + [d], d.appName, d.userId) == d.state
    ensures d in docs + [d]
    ensures forall i | 0 <= i < |docs| + 1 && UserDocOf(d.appName, d.userId)((docs + [d])[i]) :: i == |docs|
  {
    FindAppend(docs, [d], UserDocOf(d.appName, d.userId));
  }

  // ---------------------------------------------------------------------------
  // Session documents

  function SetSessionState(d: SessionDoc, k: SessionKey, s: StateMap): SessionDoc {
    if d.Key() == k then d.(state := s) else d
  }

  /** The session-scope state of the first document of the session, else empty. */
  function SessionState(docs: seq<SessionDoc>, k: SessionKey): StateMap {
    match Find(docs, SessionOf(k))
    case Some(d) => d.state
    case None => map[]
  }

  /** `_update_session_state`: like `UpdateAppState`, for the documents of one session. */
  function UpdateSessionState(docs: seq<SessionDoc>, k: SessionKey, delta: StateMap): (r: seq<SessionDoc>)
    ensures |r| == |docs|
    ensures forall i | 0 <= i < |docs| ::
      r[i].Key() == docs[i].Key() && r[i].createdAt == docs[i].createdAt && r[i].updatedAt == docs[i].updatedAt
    ensures forall i | 0 <= i < |docs| && docs[i].Key() != k :: r[i] == docs[i]
    ensures forall i | 0 <= i < |docs| && docs[i].Key() == k :: r[i].state == SessionState(docs, k) + delta
    ensures (forall d | d in docs :: d.Key() != k) ==> r == docs
    ensures (exists d | d in docs :: d.Key() == k) ==> SessionState(r, k) == SessionState(docs, k) + delta
  {
    match Find(docs, SessionOf(k))
    case None =>
      docs
    case Some(d) =>
      var r := Map(docs, (x: SessionDoc) => SetSessionState(x, k, d.state + delta));
      FindIndexSame(docs, r, SessionOf(k), SessionOf(k));
      r
  }

  /** The session's documents get `updated_at = now`. */
  function Touch(docs: seq<SessionDoc>, k: SessionKey, now: int): (r: seq<SessionDoc>)
    ensures |r| == |docs|
    ensures forall i | 0 <= i < |docs| :: r[i] == if docs[i].Key() == k then docs[i].(updatedAt := now) else docs[i]
    ensures SessionState(r, k) == SessionState(docs, k)
  {
    var r := Map(docs, (x: SessionDoc) => if x.Key() == k then x.(updatedAt := now) else x);
    FindIndexSame(docs, r, SessionOf(k), SessionOf(k));
    r
  }

  // ---------------------------------------------------------------------------
  // create_session

  /** The store after a create and the session object handed back. */
  datatype Created = Created(store: Store, session: Session)

  /** `create_session`. `generatedId` stands for the fresh identifier drawn when
      no session id is given; `now` is the clock. */
  function CreateSession(
    store: Store, appName: string, userId: string, state: Option<StateMap>,
    sessionId: Option<string>, generatedId: string, now: int): (r: Created)
    ensures r.session.Key() == SessionKey(appName, userId, sessionId.GetOr(generatedId))
    ensures r.session.events == [] && r.session.lastUpdateTime == now
    ensures forall k | k in state.GetOr(map[]) :: k in r.session.state && r.session.state[k] == state.GetOr(map[])[k]
    ensures r.session.state == MergeState(AppState(r.store.appStates, appName), UserState(r.store.userStates, appName, userId),
                                          ExtractStateDelta(state.GetOr(map[])).session)
    ensures AppState(r.store.appStates, appName) ==
      AppState(store.appStates, appName) + ExtractStateDelta(state.GetOr(map[])).app
    ensures UserState(r.store.userStates, appName, userId) ==
      UserState(store.userStates, appName, userId) + ExtractStateDelta(state.GetOr(map[])).user
    ensures exists d | d in r.store.appStates :: d.appName == appName
    ensures exists d | d in r.store.userStates :: UserDocOf(appName, userId)(d)
    ensures |store.appStates| <= |r.store.appStates| <= |store.appStates| + 1
    ensures forall i | 0 <= i < |store.appStates| && store.appStates[i].appName != appName ::
      r.store.appStates[i] == store.appStates[i]
    ensures |store.userStates| <= |r.store.userStates| <= |store.userStates| + 1
    ensures forall i | 0 <= i < |store.userStates| && !UserDocOf(appName, userId)(store.userStates[i]) ::
      r.store.userStates[i] == store.userStates[i]
    ensures |r.store.sessions| == |store.sessions| + 1 && r.store.sessions[..|store.sessions|] == store.sessions
    ensures var d := r.store.sessions[|store.sessions|];
      && d.Key() == r.session.Key() && d.createdAt == now && d.updatedAt == now
      && (forall k | k in d.state :: IsSessionKey(k) && k in state.GetOr(map[]) && d.state[k] == state.GetOr(map[])[k])
      && (forall k | k in state.GetOr(map[]) && IsSessionKey(k) :: k in d.state)
    ensures r.store.events == store.events && r.store.interactions == store.interactions
  {
    var st := state.GetOr(map[]);
    var d := ExtractStateDelta(st);
    var id := sessionId.GetOr(generatedId);
    var apps := UpsertAppState(store.appStates, appName, d.app, now);
    var users := UpsertUserState(store.userStates, appName, userId, d.user, now);
    var merged := MergeState(AppState(apps, appName), UserState(users, appName, userId), d.session);
    MergeShowsState(AppState(store.appStates, appName), UserState(store.userStates, appName, userId), st);
    forall k | k in d.session ensures IsSessionKey(k) && k in st && d.session[k] == st[k] {
      ExtractedFrom(st, k);
    }
    Created(
      store.(sessions := store.sessions + [SessionDoc(appName, userId, id, d.session, now, now)],
             appStates := apps, userStates := users),
      Session(appName, userId, id, merged, [], now))
  }

  // ---------------------------------------------------------------------------
  // get_session and list_sessions

  /** The options of a read; a field that is `None` or zero is not in force. */
  datatype GetSessionConfig = GetSessionConfig(numRecentEvents: Option<int>, afterTimestamp: Option<int>)

  /** The lower time bound in force, if any. */
  function AfterBound(config: Option<GetSessionConfig>): Option<int> {
    if config.Some? && config.value.afterTimestamp.Some? && config.value.afterTimestamp.value != 0
    then config.value.afterTimestamp else None
  }

  /** The event cap in force, if any. */
  function EventCap(config: Option<GetSessionConfig>): Option<int> {
    if config.Some? && config.value.numRecentEvents.Some? && config.value.numRecentEvents.value != 0
    then config.value.numRecentEvents else None
  }

  function DocEvent(d: EventDoc): Event { d.event }

  function NegEventTime(e: Event): int { -e.timestamp }

  function NotBefore(t: int): Event -> bool {
    (e: Event) => e.timestamp >= t
  }

  /** The stored events of a session, in insertion order. */
  function SessionEvents(store: Store, k: SessionKey): seq<Event> {
    Map(Filter(store.events, EventOf(k)), DocEvent)
  }

  /** The events a read keeps before the cap: those at or after the bound in force. */
  function EventsInRange(store: Store, k: SessionKey, config: Option<GetSessionConfig>): seq<Event> {
    match AfterBound(config)
    case None => SessionEvents(store, k)
    case Some(t) => Filter(SessionEvents(store, k), NotBefore(t))
  }

  /** Newest first, cut to the cap when one is in force (Python's slice, so a
      negative cap drops from the end), then turned back to oldest first. */
  function Recent(es: seq<Event>, cap: Option<int>): (r: seq<Event>)
    ensures SortedBy(r, EventTime)
    ensures cap.Some? && cap.value >= 0 ==> |r| == Min(cap.value, |es|)
    ensures cap.Some? && cap.value < 0 ==> |r| == Max(0, |es| + cap.value)
    ensures cap.None? ==> multiset(r) == multiset(es)
    ensures multiset(r) <= multiset(es)
    ensures forall e | e in r :: e in es
    ensures forall x, y | x in es && x !in r && y in r :: x.timestamp <= y.timestamp
  {
    var newest := SortBy(es, NegEventTime);
    var kept := if cap.Some? then Take(newest, cap.value) else newest;
    RecentFacts(es, newest, kept);
    Reverse(kept)
  }

  lemma RecentFacts(es: seq<Event>, newest: seq<Event>, kept: seq<Event>)
    requires multiset(newest) == multiset(es) && SortedBy(newest, NegEventTime)
    requires |kept| <= |newest| && kept == newest[..|kept|]
    ensures SortedBy(Reverse(kept), EventTime)
    ensures multiset(Reverse(kept)) <= multiset(es)
    ensures forall e | e in Reverse(kept) :: e in es
    ensures forall x, y | x in es && x !in Reverse(kept) && y in Reverse(kept) :: x.timestamp <= y.timestamp
  {
    SortedPrefix(newest, NegEventTime, kept);
    ReverseSorted(kept, EventTime, NegEventTime);
    RecentKept(es, newest, kept);
    RecentNewest(es, newest, kept);
  }

  /** The kept events are drawn from the input, each no more often than it occurs there. */
  lemma RecentKept(es: seq<Event>, newest: seq<Event>, kept: seq<Event>)
    requires multiset(newest) == multiset(es)
    requires |kept| <= |newest| && kept == newest[..|kept|]
    ensures multiset(Reverse(kept)) <= multiset(es)
    ensures forall e | e in Reverse(kept) :: e in es
  {
    var r := Reverse(kept);
    PrefixMultiset(newest, |kept|);
    forall e | e in r ensures e in es {
      assert e in multiset(r);
    }
  }

  /** An event cut off the newest-first order is no later than any kept one. */
  lemma RecentNewest(es: seq<Event>, newest: seq<Event>, kept: seq<Event>)
    requires multiset(newest) == multiset(es) && SortedBy(newest, NegEventTime)
    requires |kept| <= |newest| && kept == newest[..|kept|]
    ensures forall x, y | x in es && x !in Reverse(kept) && y in Reverse(kept) :: x.timestamp <= y.timestamp
  {
    var r := Reverse(kept);
    assert multiset(r) == multiset(kept);
    forall x, y | x in es && x !in r && y in r ensures x.timestamp <= y.timestamp {
      assert x in multiset(newest) && x !in multiset(kept) && y in multiset(kept);
      CutOffNoLater(newest, NegEventTime, |kept|, x, y);
    }
  }

  /** `get_session`: `None` when the session has no document; otherwise the
      first document's state merged with the app and user scopes, and the most
      recent events in range, oldest first. */
  function GetSession(store: Store, k: SessionKey, config: Option<GetSessionConfig>): (r: Option<Session>)
    ensures r.None? <==> forall d | d in store.sessions :: d.Key() != k
    ensures r.Some? ==> r.value.Key() == k
    ensures r.Some? ==>
      r.value.state == MergeState(AppState(store.appStates, k.appName), UserState(store.userStates, k.appName, k.userId),
                                  SessionState(store.sessions, k))
    ensures r.Some? ==> forall e | e in r.value.events :: e in SessionEvents(store, k)
    ensures r.Some? ==> multiset(r.value.events) <= multiset(EventsInRange(store, k, config))
    ensures r.Some? && AfterBound(config).Some? ==> forall e | e in r.value.events :: e.timestamp >= AfterBound(config).value
    ensures r.Some? ==> SortedBy(r.value.events, EventTime)
    ensures r.Some? && EventCap(config).Some? && EventCap(config).value > 0 ==>
      |r.value.events| == Min(EventCap(config).value, |EventsInRange(store, k, config)|)
    ensures r.Some? && EventCap(config).Some? && EventCap(config).value < 0 ==>
      |r.value.events| == Max(0, |EventsInRange(store, k, config)| + EventCap(config).value)
    ensures r.Some? && EventCap(config).None? ==> multiset(r.value.events) == multiset(EventsInRange(store, k, config))
  {
    match Find(store.sessions, SessionOf(k))
    case None => None
    case Some(d) =>
      var state := MergeState(AppState(store.appStates, k.appName), UserState(store.userStates, k.appName, k.userId), d.state);
      var events := Recent(EventsInRange(store, k, config), EventCap(config));
      Some(Session(k.appName, k.userId, k.id, state, events, d.updatedAt))
  }

  /** `get_session` returns, of the events in range, the most recent ones: any
      event it leaves out is no later than any event it returns. */
  lemma GetSessionKeepsNewest(store: Store, k: SessionKey, config: Option<GetSessionConfig>)
    ensures GetSession(store, k, config).Some? ==>
      forall x, y | x in EventsInRange(store, k, config) && x !in GetSession(store, k, config).value.events
                    && y in GetSession(store, k, config).value.events :: x.timestamp <= y.timestamp
  {
  }

  /** Events sharing a timestamp come back newest-inserted first: the
      descending stable sort followed by `reversed` inverts their insertion order. */
  lemma {:induction false} GetSessionTiesReversed(es: seq<Event>, t: int)
    ensures Matching(Recent(es, None), EventTime, t) == Reverse(Matching(es, EventTime, t))
  {
    var newest := SortBy(es, NegEventTime);
    assert Recent(es, None) == Reverse(newest);
    var m := Matching(newest, EventTime, t);
    assert m == Matching(es, EventTime, t) by {
      SortNegatedStable(es, EventTime, NegEventTime, t);
    }
    MatchingReverse(newest, EventTime, t);
  }

  function UserSessionOf(appName: string, userId: string): SessionDoc -> bool {
    (d: SessionDoc) => d.appName == appName && d.userId == userId
  }

  /** A listed session: the stored session-scope state as it is, and no events. */
  function Listed(d: SessionDoc): Session {
    Session(d.appName, d.userId, d.id, d.state, [], d.updatedAt)
  }

  /** `list_sessions`: every document of the user in insertion order; the
      state is the raw session scope, not merged with the app and user scopes. */
  function ListSessions(store: Store, appName: string, userId: string): (r: seq<Session>)
    ensures |r| == Count(store.sessions, UserSessionOf(appName, userId))
    ensures multiset(r) == multiset(Map(Filter(store.sessions, UserSessionOf(appName, userId)), Listed))
    ensures forall s | s in r :: s.appName == appName && s.userId == userId && s.events == []
    ensures forall s | s in r :: exists d | d in store.sessions :: Listed(d) == s
    ensures forall d | d in store.sessions && d.appName == appName && d.userId == userId :: Listed(d) in r
  {
    var docs := Filter(store.sessions, UserSessionOf(appName, userId));
    assert forall d | d in docs :: d.appName == appName && d.userId == userId;
    forall d | d in store.sessions && d.appName == appName && d.userId == userId ensures Listed(d) in Map(docs, Listed) {
      var i :| 0 <= i < |docs| && docs[i] == d;
    }
    Map(docs, Listed)
  }

  /** Every listed session can be read back. */
  lemma ListedAreGettable(store: Store, appName: string, userId: string, s: Session)
    requires s in ListSessions(store, appName, userId)
    ensures GetSession(store, s.Key(), None).Some?
  {
    var d :| d in store.sessions && Listed(d) == s;
    assert d.Key() == s.Key();
  }

  /** A session created under a key no document used before reads back as the
      very object `create_session` returned. */
  lemma CreateThenGet(
    store: Store, appName: string, userId: string, state: Option<StateMap>,
    sessionId: Option<string>, generatedId: string, now: int)
    requires var k := SessionKey(appName, userId, sessionId.GetOr(generatedId));
      && (forall d | d in store.sessions :: d.Key() != k)
      && (forall d | d in store.events :: d.Key() != k)
    ensures var c := CreateSession(store, appName, userId, state, sessionId, generatedId, now);
      GetSession(c.store, c.session.Key(), None) == Some(c.session)
  {
    var c := CreateSession(store, appName, userId, state, sessionId, generatedId, now);
    var k := c.session.Key();
    var doc := SessionDoc(appName, userId, k.id, ExtractStateDelta(state.GetOr(map[])).session, now, now);
    FindAppend(store.sessions, [doc], SessionOf(k));
    FilterTrivial(store.events, EventOf(k));
  }

  // ---------------------------------------------------------------------------
  // delete_session

  function OtherSession(k: SessionKey): SessionDoc -> bool {
    (d: SessionDoc) => d.Key() != k
  }

  function OtherEvent(k: SessionKey): EventDoc -> bool {
    (d: EventDoc) => d.Key() != k
  }

  function OtherInteraction(k: SessionKey): Interaction -> bool {
    (i: Interaction) => i.Key() != k
  }

  /** `delete_session`: the session's documents, events and interactions are
      removed, everything else stays in order; the scope tables are untouched. */
  function DeleteSession(store: Store, k: SessionKey): (r: Store)
    ensures forall d | d in store.sessions :: d in r.sessions <==> d.Key() != k
    ensures forall d | d in store.events :: d in r.events <==> d.Key() != k
    ensures forall i | i in store.interactions :: i in r.interactions <==> i.Key() != k
    ensures forall d :: multiset(r.sessions)[d] == if d.Key() != k then multiset(store.sessions)[d] else 0
    ensures forall d :: multiset(r.events)[d] == if d.Key() != k then multiset(store.events)[d] else 0
    ensures forall i :: multiset(r.interactions)[i] == if i.Key() != k then multiset(store.interactions)[i] else 0
    ensures r.sessions == Filter(store.sessions, OtherSession(k))
    ensures r.events == Filter(store.events, OtherEvent(k))
    ensures r.interactions == Filter(store.interactions, OtherInteraction(k))
    ensures r.appStates == store.appStates && r.userStates == store.userStates
  {
    forall d ensures multiset(Filter(store.sessions, OtherSession(k)))[d] == if d.Key() != k then multiset(store.sessions)[d] else 0 {
      FilterMultiset(store.sessions, OtherSession(k), d);
    }
    forall d ensures multiset(Filter(store.events, OtherEvent(k)))[d] == if d.Key() != k then multiset(store.events)[d] else 0 {
      FilterMultiset(store.events, OtherEvent(k), d);
    }
    forall i ensures multiset(Filter(store.interactions, OtherInteraction(k)))[i] ==
                     if i.Key() != k then multiset(store.interactions)[i] else 0 {
      FilterMultiset(store.interactions, OtherInteraction(k), i);
    }
    var r := Store(
      Filter(store.sessions, OtherSession(k)),
      Filter(store.events, OtherEvent(k)),
      store.appStates,
      store.userStates,
      Filter(store.interactions, OtherInteraction(k)));
    assert forall d | d in r.sessions :: d.Key() != k;
    assert forall d | d in r.events :: d.Key() != k;
    assert forall i | i in r.interactions :: i.Key() != k;
    r
  }

  /** Deleting a session that has no records changes nothing. */
  lemma DeleteNoop(store: Store, k: SessionKey)
    requires forall d | d in store.sessions :: d.Key() != k
    requires forall d | d in store.events :: d.Key() != k
    requires forall i | i in store.interactions :: i.Key() != k
    ensures DeleteSession(store, k) == store
  {
    FilterTrivial(store.sessions, OtherSession(k));
    FilterTrivial(store.events, OtherEvent(k));
    FilterTrivial(store.interactions, OtherInteraction(k));
  }

  lemma DeleteIdempotent(store: Store, k: SessionKey)
    ensures DeleteSession(DeleteSession(store, k), k) == DeleteSession(store, k)
  {
    FilterFilter(store.sessions, OtherSession(k), OtherSession(k));
    FilterFilter(store.events, OtherEvent(k), OtherEvent(k));
    FilterFilter(store.interactions, OtherInteraction(k), OtherInteraction(k));
  }

  /** After a delete the session reads back as `None`, while every other
      session reads back exactly as before. */
  lemma GetAfterDelete(store: Store, k: SessionKey, other: SessionKey, config: Option<GetSessionConfig>)
    requires other != k
    ensures GetSession(DeleteSession(store, k), k, config).None?
    ensures GetSession(DeleteSession(store, k), other, config) == GetSession(store, other, config)
  {
    var r := DeleteSession(store, k);
    FindFilter(store.sessions, OtherSession(k), SessionOf(other));
    FilterFilter(store.events, OtherEvent(k), EventOf(other));
    assert SessionEvents(r, other) == SessionEvents(store, other);
    GetSessionFrom(r, store, other, config);
  }

  /** A read depends only on the first document of the session, its events and the two scopes. */
  lemma GetSessionFrom(a: Store, b: Store, k: SessionKey, config: Option<GetSessionConfig>)
    requires Find(a.sessions, SessionOf(k)) == Find(b.sessions, SessionOf(k))
    requires SessionEvents(a, k) == SessionEvents(b, k)
    requires a.appStates == b.appStates && a.userStates == b.userStates
    ensures GetSession(a, k, config) == GetSession(b, k, config)
  {
  }

  // ---------------------------------------------------------------------------
  // append_event

  /** The state-delta step of `append_event`: each non-empty part goes to its
      own scope, and only into documents that already exist. */
  function ApplyStateDelta(store: Store, k: SessionKey, delta: StateMap): (r: Store)
    ensures r.events == store.events && r.interactions == store.interactions
    ensures |r.appStates| == |store.appStates| && |r.userStates| == |store.userStates| && |r.sessions| == |store.sessions|
    ensures forall i | 0 <= i < |store.appStates| :: r.appStates[i].appName == store.appStates[i].appName
    ensures forall i | 0 <= i < |store.userStates| ::
      r.userStates[i].appName == store.userStates[i].appName && r.userStates[i].userId == store.userStates[i].userId
    ensures forall i | 0 <= i < |store.sessions| ::
      && r.sessions[i].Key() == store.sessions[i].Key()
      && r.sessions[i].createdAt == store.sessions[i].createdAt
      && r.sessions[i].updatedAt == store.sessions[i].updatedAt
    ensures forall i | 0 <= i < |store.appStates| && store.appStates[i].appName != k.appName ::
      r.appStates[i] == store.appStates[i]
    ensures forall i | 0 <= i < |store.userStates| && !UserDocOf(k.appName, k.userId)(store.userStates[i]) ::
      r.userStates[i] == store.userStates[i]
    ensures forall i | 0 <= i < |store.sessions| && store.sessions[i].Key() != k :: r.sessions[i] == store.sessions[i]
    ensures (exists d | d in store.appStates :: d.appName == k.appName) ==>
      AppState(r.appStates, k.appName) == AppState(store.appStates, k.appName) + ExtractStateDelta(delta).app
    ensures (exists d | d in store.userStates :: UserDocOf(k.appName, k.userId)(d)) ==>
      UserState(r.userStates, k.appName, k.userId) == UserState(store.userStates, k.appName, k.userId) + ExtractStateDelta(delta).user
    ensures (exists d | d in store.sessions :: d.Key() == k) ==>
      SessionState(r.sessions, k) == SessionState(store.sessions, k) + ExtractStateDelta(delta).session
  {
    var d := ExtractStateDelta(delta);
    store.(appStates := ApplyToApp(store.appStates, k.appName, d.app),
           userStates := ApplyToUser(store.userStates, k.appName, k.userId, d.user),
           sessions := ApplyToSession(store.sessions, k, d.session))
  }

  /** `if app_state_delta: _update_app_state(...)`. */
  function ApplyToApp(docs: seq<AppStateDoc>, appName: string, delta: StateMap): (r: seq<AppStateDoc>)
    ensures |r| == |docs|
    ensures forall i | 0 <= i < |docs| :: r[i].appName == docs[i].appName
    ensures forall i | 0 <= i < |docs| && docs[i].appName != appName :: r[i] == docs[i]
    ensures delta == map[] ==> r == docs
    ensures (exists d | d in docs :: d.appName == appName) ==> AppState(r, appName) == AppState(docs, appName) + delta
  {
    if delta != map[] then UpdateAppState(docs, appName, delta)
    else
      assert AppState(docs, appName) + delta == AppState(docs, appName);
      docs
  }

  function ApplyToUser(docs: seq<UserStateDoc>, appName: string, userId: string, delta: StateMap): (r: seq<UserStateDoc>)
    ensures |r| == |docs|
    ensures forall i | 0 <= i < |docs| :: r[i].appName == docs[i].appName && r[i].userId == docs[i].userId
    ensures forall i | 0 <= i < |docs| && !UserDocOf(appName, userId)(docs[i]) :: r[i] == docs[i]
    ensures delta == map[] ==> r == docs
    ensures (exists d | d in docs :: UserDocOf(appName, userId)(d)) ==>
      UserState(r, appName, userId) == UserState(docs, appName, userId) + delta
  {
    if delta != map[] then UpdateUserState(docs, appName, userId, delta)
    else
      assert UserState(docs, appName, userId) + delta == UserState(docs, appName, userId);
      docs
  }

  function ApplyToSession(docs: seq<SessionDoc>, k: SessionKey, delta: StateMap): (r: seq<SessionDoc>)
    ensures |r| == |docs|
    ensures forall i | 0 <= i < |docs| ::
      r[i].Key() == docs[i].Key() && r[i].createdAt == docs[i].createdAt && r[i].updatedAt == docs[i].updatedAt
    ensures forall i | 0 <= i < |docs| && docs[i].Key() != k :: r[i] == docs[i]
    ensures delta == map[] ==> r == docs
    ensures (exists d | d in docs :: d.Key() == k) ==> SessionState(r, k) == SessionState(docs, k) + delta
  {
    if delta != map[] then UpdateSessionState(docs, k, delta)
    else
      assert SessionState(docs, k) + delta == SessionState(docs, k);
      docs
  }

  /** `append_event`: one event document and one interaction are added, the
      state delta of the event's actions is applied, and the session's
      documents are stamped with `now`. */
  function AppendEvent(store: Store, session: Session, e: Event, now: int): (r: Store)
    ensures r.events == store.events + [EventDoc(session.appName, session.userId, session.id, e)]
    ensures |r.interactions| == |store.interactions| + 1
    ensures r.interactions[..|store.interactions|] == store.interactions
    ensures var i := r.interactions[|store.interactions|];
      i.eventId == e.id && i.Key() == session.Key() && i.timestamp == e.timestamp
    ensures r.interactions[|store.interactions|] == DeriveInteraction(session.Key(), e, now)
    ensures |r.sessions| == |store.sessions|
    ensures forall i | 0 <= i < |store.sessions| ::
      && r.sessions[i].Key() == store.sessions[i].Key()
      && r.sessions[i].createdAt == store.sessions[i].createdAt
      && r.sessions[i].updatedAt == (if store.sessions[i].Key() == session.Key() then now else store.sessions[i].updatedAt)
    ensures |r.appStates| == |store.appStates| && |r.userStates| == |store.userStates|
    ensures forall i | 0 <= i < |store.appStates| :: r.appStates[i].appName == store.appStates[i].appName
    ensures forall i | 0 <= i < |store.userStates| ::
      r.userStates[i].appName == store.userStates[i].appName && r.userStates[i].userId == store.userStates[i].userId
    ensures e.actions.None? || e.actions.value.stateDelta == map[] ==>
      && r.appStates == store.appStates && r.userStates == store.userStates
      && forall i | 0 <= i < |store.sessions| :: r.sessions[i].state == store.sessions[i].state
    ensures forall i | 0 <= i < |store.appStates| && store.appStates[i].appName != session.appName ::
      r.appStates[i] == store.appStates[i]
    ensures forall i | 0 <= i < |store.userStates| && !UserDocOf(session.appName, session.userId)(store.userStates[i]) ::
      r.userStates[i] == store.userStates[i]
    ensures forall i | 0 <= i < |store.sessions| && store.sessions[i].Key() != session.Key() ::
      r.sessions[i] == store.sessions[i]
    ensures e.actions.Some? && (exists d | d in store.appStates :: d.appName == session.appName) ==>
      AppState(r.appStates, session.appName)
        == AppState(store.appStates, session.appName) + ExtractStateDelta(e.actions.value.stateDelta).app
    ensures e.actions.Some? && (exists d | d in store.userStates :: UserDocOf(session.appName, session.userId)(d)) ==>
      UserState(r.userStates, session.appName, session.userId)
        == UserState(store.userStates, session.appName, session.userId) + ExtractStateDelta(e.actions.value.stateDelta).user
    ensures e.actions.Some? && (exists d | d in store.sessions :: d.Key() == session.Key()) ==>
      SessionState(r.sessions, session.Key())
        == SessionState(store.sessions, session.Key()) + ExtractStateDelta(e.actions.value.stateDelta).session
  {
    var k := session.Key();
    var s1 := store.(events := store.events + [EventDoc(session.appName, session.userId, session.id, e)],
                     interactions := store.interactions + [DeriveInteraction(k, e, now)]);
    var s2 := ApplyActions(s1, k, e.actions);
    s2.(sessions := Touch(s2.sessions, k, now))
  }

  /** `if event.actions and event.actions.state_delta:` around the state-delta step. */
  function ApplyActions(store: Store, k: SessionKey, actions: Option<Actions>): (r: Store)
    ensures r.events == store.events && r.interactions == store.interactions
    ensures |r.appStates| == |store.appStates| && |r.userStates| == |store.userStates| && |r.sessions| == |store.sessions|
    ensures forall i | 0 <= i < |store.appStates| :: r.appStates[i].appName == store.appStates[i].appName
    ensures forall i | 0 <= i < |store.userStates| ::
      r.userStates[i].appName == store.userStates[i].appName && r.userStates[i].userId == store.userStates[i].userId
    ensures forall i | 0 <= i < |store.sessions| ::
      && r.sessions[i].Key() == store.sessions[i].Key()
      && r.sessions[i].createdAt == store.sessions[i].createdAt
      && r.sessions[i].updatedAt == store.sessions[i].updatedAt
    ensures forall i | 0 <= i < |store.appStates| && store.appStates[i].appName != k.appName ::
      r.appStates[i] == store.appStates[i]
    ensures forall i | 0 <= i < |store.userStates| && !UserDocOf(k.appName, k.userId)(store.userStates[i]) ::
      r.userStates[i] == store.userStates[i]
    ensures forall i | 0 <= i < |store.sessions| && store.sessions[i].Key() != k :: r.sessions[i] == store.sessions[i]
    ensures actions.None? || actions.value.stateDelta == map[] ==> r == store
    ensures actions.Some? && (exists d | d in store.appStates :: d.appName == k.appName) ==>
      AppState(r.appStates, k.appName) == AppState(store.appStates, k.appName) + ExtractStateDelta(actions.value.stateDelta).app
    ensures actions.Some? && (exists d | d in store.userStates :: UserDocOf(k.appName, k.userId)(d)) ==>
      UserState(r.userStates, k.appName, k.userId)
        == UserState(store.userStates, k.appName, k.userId) + ExtractStateDelta(actions.value.stateDelta).user
    ensures actions.Some? && (exists d | d in store.sessions :: d.Key() == k) ==>
      SessionState(r.sessions, k) == SessionState(store.sessions, k) + ExtractStateDelta(actions.value.stateDelta).session
  {
    if actions.Some? && actions.value.stateDelta != map[] then ApplyStateDelta(store, k, actions.value.stateDelta)
    else
      ExtractNothing();
      UpdateNothing(AppState(store.appStates, k.appName));
      UpdateNothing(UserState(store.userStates, k.appName, k.userId));
      UpdateNothing(SessionState(store.sessions, k));
      store
  }

  /** Every session-scope entry of the delta is visible when the session is read back. */
  lemma AppendShowsSessionDelta(store: Store, session: Session, e: Event, now: int)
    requires exists d | d in store.sessions :: d.Key() == session.Key()
    requires e.actions.Some?
    ensures var g := GetSession(AppendEvent(store, session, e, now), session.Key(), None);
      && g.Some?
      && forall j | j in e.actions.value.stateDelta && IsSessionKey(j) ::
           j in g.value.state && g.value.state[j] == e.actions.value.stateDelta[j]
  {
    AppendKeepsSession(store, session, e, now);
  }

  /** An append never removes the session's document. */
  lemma AppendKeepsSession(store: Store, session: Session, e: Event, now: int)
    requires exists d | d in store.sessions :: d.Key() == session.Key()
    ensures exists d | d in AppendEvent(store, session, e, now).sessions :: d.Key() == session.Key()
  {
    var r := AppendEvent(store, session, e, now);
    var i :| 0 <= i < |store.sessions| && store.sessions[i].Key() == session.Key();
    assert r.sessions[i] in r.sessions;
  }

  lemma UpdateAppStateIdempotent(docs: seq<AppStateDoc>, appName: string, delta: StateMap)
    ensures UpdateAppState(UpdateAppState(docs, appName, delta), appName, delta) == UpdateAppState(docs, appName, delta)
  {
    var r := UpdateAppState(docs, appName, delta);
    if exists d | d in docs :: d.appName == appName {
      SameAppDocs(r, UpdateAppState(r, appName, delta), appName, AppState(docs, appName), delta);
    }
  }

  /** Two tables that agree everywhere except possibly on the state of the
      app's documents, `s` updated by `delta` once or twice, are the same table. */
  lemma SameAppDocs(r: seq<AppStateDoc>, r2: seq<AppStateDoc>, appName: string, s: StateMap, delta: StateMap)
    requires |r2| == |r|
    requires forall i | 0 <= i < |r| :: r2[i].appName == r[i].appName && r2[i].createdAt == r[i].createdAt
    requires forall i | 0 <= i < |r| && r[i].appName != appName :: r2[i] == r[i]
    requires forall i | 0 <= i < |r| && r[i].appName == appName :: r[i].state == s + delta
    requires forall i | 0 <= i < |r| && r[i].appName == appName :: r2[i].state == s + delta + delta
    ensures r2 == r
  {
    assert s + delta + delta == s + delta;
  }

  lemma UpdateUserStateIdempotent(docs: seq<UserStateDoc>, appName: string, userId: string, delta: StateMap)
    ensures UpdateUserState(UpdateUserState(docs, appName, userId, delta), appName, userId, delta)
         == UpdateUserState(docs, appName, userId, delta)
  {
    var r := UpdateUserState(docs, appName, userId, delta);
    if exists d | d in docs :: UserDocOf(appName, userId)(d) {
      SameUserDocs(r, UpdateUserState(r, appName, userId, delta), appName, userId,
                   UserState(docs, appName, userId), delta);
    }
  }

  lemma SameUserDocs(r: seq<UserStateDoc>, r2: seq<UserStateDoc>, appName: string, userId: string, s: StateMap, delta: StateMap)
    requires |r2| == |r|
    requires forall i | 0 <= i < |r| ::
      r2[i].appName == r[i].appName && r2[i].userId == r[i].userId && r2[i].createdAt == r[i].createdAt
    requires forall i | 0 <= i < |r| && !UserDocOf(appName, userId)(r[i]) :: r2[i] == r[i]
    requires forall i | 0 <= i < |r| && UserDocOf(appName, userId)(r[i]) :: r[i].state == s + delta
    requires forall i | 0 <= i < |r| && UserDocOf(appName, userId)(r[i]) :: r2[i].state == s + delta + delta
    ensures r2 == r
  {
    assert s + delta + delta == s + delta;
  }

  lemma UpdateSessionStateIdempotent(docs: seq<SessionDoc>, k: SessionKey, delta: StateMap)
    ensures UpdateSessionState(UpdateSessionState(docs, k, delta), k, delta) == UpdateSessionState(docs, k, delta)
  {
    var r := UpdateSessionState(docs, k, delta);
    if exists d | d in docs :: d.Key() == k {
      SameSessionDocs(r, UpdateSessionState(r, k, delta), k, SessionState(docs, k), delta);
    }
  }

  lemma SameSessionDocs(r: seq<SessionDoc>, r2: seq<SessionDoc>, k: SessionKey, s: StateMap, delta: StateMap)
    requires |r2| == |r|
    requires forall i | 0 <= i < |r| ::
      r2[i].Key() == r[i].Key() && r2[i].createdAt == r[i].createdAt && r2[i].updatedAt == r[i].updatedAt
    requires forall i | 0 <= i < |r| && r[i].Key() != k :: r2[i] == r[i]
    requires forall i | 0 <= i < |r| && r[i].Key() == k :: r[i].state == s + delta
    requires forall i | 0 <= i < |r| && r[i].Key() == k :: r2[i].state == s + delta + delta
    ensures r2 == r
  {
    assert s + delta + delta == s + delta;
  }

  /** Applying the same state delta twice leaves the store as applying it once. */
  lemma ApplyStateDeltaIdempotent(store: Store, k: SessionKey, delta: StateMap)
    ensures ApplyStateDelta(ApplyStateDelta(store, k, delta), k, delta) == ApplyStateDelta(store, k, delta)
  {
    var d := ExtractStateDelta(delta);
    UpdateAppStateIdempotent(store.appStates, k.appName, d.app);
    UpdateUserStateIdempotent(store.userStates, k.appName, k.userId, d.user);
    UpdateSessionStateIdempotent(store.sessions, k, d.session);
  }

  // ---------------------------------------------------------------------------
  // get_agent_interaction_summary

  /** One entry of the interaction timeline. */
  datatype TimelineEntry = TimelineEntry(
    timestamp: int,
    author: string,
    contentType: Option<ContentType>,
    summary: Option<string>,
    agentName: Option<string>)

  datatype InteractionSummary = InteractionSummary(
    total: nat,
    userQuestions: nat,
    agentResponses: nat,
    agentTransfers: nat,
    agentsUsed: set<string>,
    timeline: seq<TimelineEntry>)

  function Entry(i: Interaction): TimelineEntry {
    TimelineEntry(i.timestamp, i.author, i.contentType, i.contentSummary, i.agentName)
  }

  function EntryTime(t: TimelineEntry): int { t.timestamp }

  /** The interactions of one session, in insertion order. */
  function SessionInteractions(store: Store, k: SessionKey): seq<Interaction> {
    Filter(store.interactions, InteractionOf(k))
  }

  /** The timeline: every interaction of the session as an entry, ascending by timestamp. */
  function Timeline(xs: seq<Interaction>): (r: seq<TimelineEntry>)
    ensures |r| == |xs|
    ensures SortedBy(r, EntryTime)
    ensures forall x | x in xs :: Entry(x) in r
    ensures forall t | t in r :: exists x | x in xs :: Entry(x) == t
    ensures multiset(r) == multiset(Map(xs, Entry))
  {
    var sorted := SortBy(xs, InteractionTime);
    var r := Map(sorted, Entry);
    MapPermutation(sorted, xs, Entry);
    MapMembers(r, xs, Entry);
    assert forall a, b | 0 <= a < b < |r| :: InteractionTime(sorted[a]) <= InteractionTime(sorted[b]);
    r
  }

  /** `get_agent_interaction_summary`. */
  function GetAgentInteractionSummary(store: Store, k: SessionKey): (r: InteractionSummary)
    ensures r.total == Count(store.interactions, InteractionOf(k))
    ensures r.userQuestions == Count(SessionInteractions(store, k), IsQuestion) <= r.total
    ensures r.agentResponses == Count(SessionInteractions(store, k), IsResponse) <= r.total
    ensures r.agentTransfers == Count(SessionInteractions(store, k), IsTransferred) <= r.total
    ensures forall a | a in r.agentsUsed ::
      exists x | x in store.interactions :: x.Key() == k && x.agentName == Some(a) && a != ""
    ensures forall x | x in store.interactions && x.Key() == k && Truthy(x.agentName) :: x.agentName.value in r.agentsUsed
    ensures |r.timeline| == r.total && SortedBy(r.timeline, EntryTime)
    ensures forall x | x in store.interactions && x.Key() == k :: Entry(x) in r.timeline
    ensures multiset(r.timeline) == multiset(Map(SessionInteractions(store, k), Entry))
  {
    var xs := SessionInteractions(store, k);
    InteractionSummary(|xs|, |Filter(xs, IsQuestion)|, |Filter(xs, IsResponse)|, |Filter(xs, IsTransferred)|,
                       AgentNames(xs), Timeline(xs))
  }

  /** Appending an event adds one interaction to its own session's summary and
      none to any other session's. */
  lemma SummaryAfterAppend(store: Store, session: Session, e: Event, now: int, k: SessionKey)
    ensures GetAgentInteractionSummary(AppendEvent(store, session, e, now), k).total ==
      GetAgentInteractionSummary(store, k).total + (if k == session.Key() then 1 else 0)
  {
    var r := AppendEvent(store, session, e, now);
    var n := |store.interactions|;
    assert r.interactions == store.interactions + [r.interactions[n]];
    CountAppend(store.interactions, [r.interactions[n]], InteractionOf(k));
    assert [r.interactions[n]][..0] == [];
  }

  /** A deleted session has no interactions left. */
  lemma SummaryAfterDelete(store: Store, k: SessionKey)
    ensures GetAgentInteractionSummary(DeleteSession(store, k), k) == InteractionSummary(0, 0, 0, 0, {}, [])
  {
    var r := DeleteSession(store, k);
    FilterTrivial(r.interactions, InteractionOf(k));
  }
}
